=== FILE: README.md ===
# DateTimeUtils, modelled in Dafny

A model of `in.ashwanik.utils.DateTimeUtils`, the static date-time helper
class of `java-utils`. It picks the latest or earliest of several
`LocalDateTime`s or `Calendar`s, ignoring nulls and falling back to
`LocalDateTime.MIN` / `LocalDateTime.MAX`. It checks whether a date-time
lies in an inclusive range; a missing bound is taken as `MIN` or `MAX`, so
that side has no limit. It converts epoch
millis and `Date`s to UTC date-times, where millis `0` means "no
timestamp", and converts zoned date-times back to millis. It renders a
date-time as ISO-8601 text at UTC. It truncates to the start or end of a
day, and finds the first and last day of a month.

The helpers lean on `java.time`, so the parts of it they use are modelled
too. Each layer is its own module:

- `Wrappers`: `Option` (a Java `null` is `None`) and `Result` (a thrown
  exception is `Failure`).
- `IsoCalendar`: the proleptic Gregorian calendar. It has the leap-year
  rule, month lengths, the conversion between dates and epoch days
  (`LocalDate.toEpochDay` / `ofEpochDay`), and the year range
  -999999999..999999999.
- `JavaTime`: `LocalDateTime` (fields, `compareTo`, `MIN`, `MAX`,
  `ofEpochSecond`), `Instant` (`ofEpochMilli`, `toEpochMilli` with its
  overflow checks), and `ZonedDateTime` at a fixed offset
  (`withZoneSameInstant(UTC)`, `toInstant`).
- `IsoFormat`: `LocalDate.toString()` and `LocalTime.toString()` built from
  the same string steps the JDK uses. It also holds a parser for that text,
  proved to invert it.
- `DateTimeUtils`: the class itself.

The main results:

- `getMaxDateTime` returns one of its non-null arguments that no other
  argument is after. With no non-null argument it returns `MIN`.
  `getMinDateTime` is symmetric and falls back to `MAX`. The `Calendar`
  overloads behave the same on converted values, and a null calendar never
  changes their result.
- `LocalDateTime.compareTo` orders valid values exactly as the timeline of
  nanoseconds since the epoch does. So "latest" and "inside the range" mean
  what they mean on the clock.
- `isBetween` holds exactly when `from` (or `MIN`) is not after the value
  and the value is not after `to` (or `MAX`). With both bounds null it
  holds for every valid value.
- `toUTC(0)` is null. For every other `long`, `toUTCMillis` of the UTC
  date-time `toUTC` gives returns the same millis. In the other direction,
  `toUTC` of the UTC millis of a valid date-time on a whole millisecond
  returns that date-time, except when those millis are `0` (the epoch
  itself, which `toUTC` maps to null) or when `toUTCMillis` throws
  because the millis overflow a `long`.
- `toUTCMillis` depends only on the instant. A zoned date-time at any
  offset that denotes the current instant gives `getUtcNowMills()`.
- `getUtcIsoString` ends in `Z` and is injective: the parser recovers the
  date-time from it. `2019-10-01T05:05:05` prints as
  `2019-10-01T05:05:05Z`, and the `:ss` part is left out when seconds and
  nanos are both zero.
- The start and end of a day keep the date and the nanos, enclose the
  date-time, and sit at the first and last second of the day, plus the
  date-time's own nanos.
- The first and last day of a month enclose every day of it, span the
  month's length, and the day after the last is the first day of the next
  month.

`java.util.Calendar` is a type parameter `C` with an injected conversion
`C -> LocalDateTime`. This stands for `LocalDateTime.ofInstant` in the
calendar's time zone. A `java.util.Date` is its epoch millis. The system
clock is an `Instant` passed in as a parameter.

## Model

| member | source | states |
|---|---|---|
| `DateTimeUtils.ToLocalDateTime` | src/main/java/in/ashwanik/utils/DateTimeUtils.java:31-38 | a null calendar gives null, and only a null calendar does; otherwise the result is the calendar's own conversion |
| `DateTimeUtils.NonNull` | src/main/java/in/ashwanik/utils/DateTimeUtils.java:49 | `filter(Objects::nonNull)` keeps a value exactly when some entry holds it, and is no longer than its input |
| `DateTimeUtils.NonNullConcat` | src/main/java/in/ashwanik/utils/DateTimeUtils.java:49 | filtering keeps order and multiplicity: the filter of two stretches end to end is the first's filter followed by the second's |
| `DateTimeUtils.NonNullOfOne` | src/main/java/in/ashwanik/utils/DateTimeUtils.java:49 | a null entry is dropped and a present one is kept, so with `NonNullConcat` the filtered stream is fully determined |
| `DateTimeUtils.NonNullEmpty` | src/main/java/in/ashwanik/utils/DateTimeUtils.java:49-51 | the filtered stream is empty exactly when every entry is null, which is when `orElse` supplies the sentinel |
| `DateTimeUtils.NonNullSkipsNull` | src/main/java/in/ashwanik/utils/DateTimeUtils.java:49 | removing a null entry does not change the filtered stream |
| `DateTimeUtils.MapToDatetime` | src/main/java/in/ashwanik/utils/DateTimeUtils.java:218-223 | one result per non-null calendar, in order, each the converted calendar |
| `DateTimeUtils.CalendarsMapped` | src/main/java/in/ashwanik/utils/DateTimeUtils.java:218-223 | the mapped array holds no null, holds a date-time exactly when some non-null calendar converts to it, and is non-empty exactly when some calendar is non-null |
| `DateTimeUtils.MaxBy` | src/main/java/in/ashwanik/utils/DateTimeUtils.java:50 | `maxBy(compareTo)` returns one of its two arguments that neither is after, and the second only when it is strictly later |
| `DateTimeUtils.MinBy` | src/main/java/in/ashwanik/utils/DateTimeUtils.java:75 | `minBy(compareTo)` returns one of its two arguments that is after neither, and the second only when it is strictly earlier |
| `DateTimeUtils.StreamMax` | src/main/java/in/ashwanik/utils/DateTimeUtils.java:50 | `Stream.max` is empty only on an empty stream; otherwise it returns an element that no element is after |
| `DateTimeUtils.StreamMin` | src/main/java/in/ashwanik/utils/DateTimeUtils.java:75 | `Stream.min` is empty only on an empty stream; otherwise it returns an element that is not after any element |
| `DateTimeUtils.GetMaxDateTime` | src/main/java/in/ashwanik/utils/DateTimeUtils.java:46-52 | all-null or no arguments give `LocalDateTime.MIN`; otherwise the result is one of the non-null arguments and no non-null argument is after it |
| `DateTimeUtils.GetMinDateTime` | src/main/java/in/ashwanik/utils/DateTimeUtils.java:71-77 | all-null or no arguments give `LocalDateTime.MAX`; otherwise the result is one of the non-null arguments and is not after any of them |
| `DateTimeUtils.GetMaxDateTimeOfCalendars` | src/main/java/in/ashwanik/utils/DateTimeUtils.java:60-63 | all-null calendars give `MIN`; otherwise the result is the conversion of some non-null calendar and no converted calendar is after it |
| `DateTimeUtils.GetMinDateTimeOfCalendars` | src/main/java/in/ashwanik/utils/DateTimeUtils.java:85-88 | all-null calendars give `MAX`; otherwise the result is the conversion of some non-null calendar and is not after any converted calendar |
| `DateTimeUtils.NullCalendarIgnored` | src/test/java/in/ashwanik/utils/DateTimeUtilsUnitTest.java:23 | a null calendar among the arguments changes neither the maximum nor the minimum |
| `DateTimeUtils.MinNotAfterMax` | src/main/java/in/ashwanik/utils/DateTimeUtils.java:46-77 | with a non-null argument present, the minimum is not after the maximum |
| `DateTimeUtils.MaxIsLatest` | src/main/java/in/ashwanik/utils/DateTimeUtils.java:46-52 | for valid arguments the maximum is valid and is the latest of them on the timeline |
| `DateTimeUtils.MinIsEarliest` | src/main/java/in/ashwanik/utils/DateTimeUtils.java:71-77 | for valid arguments the minimum is valid and is the earliest of them on the timeline |
| `DateTimeUtils.IsBetween` | src/main/java/in/ashwanik/utils/DateTimeUtils.java:98-105 | true exactly when the lower bound (`MIN` if null) is not after the value and the value is not after the upper bound (`MAX` if null); true for every valid value when both bounds are null |
| `DateTimeUtils.IsBetweenOnTimeline` | src/main/java/in/ashwanik/utils/DateTimeUtils.java:98-105 | for valid values, `isBetween` is membership in the closed interval of the timeline, both ends included |
| `DateTimeUtils.IntervalOnTimeline` | src/main/java/in/ashwanik/utils/DateTimeUtils.java:103-104 | for valid values, lying between two bounds by `compareTo` is lying between them on the timeline |
| `DateTimeUtils.NotAfterOnTimeline` | src/main/java/in/ashwanik/utils/DateTimeUtils.java:103-104 | "after or equal" and "before or equal" through `compareTo` agree with the timeline order |
| `DateTimeUtils.MinMaxValid` | src/main/java/in/ashwanik/utils/DateTimeUtils.java:101-102 | the sentinels `MIN` and `MAX` are themselves valid date-times |
| `DateTimeUtils.ToUtcOfDate` | src/main/java/in/ashwanik/utils/DateTimeUtils.java:113-118 | a null date gives null and only a null date does; any other date, the epoch itself included, gives a valid UTC date-time on a whole millisecond whose millis are the date's, so the result is that one date-time |
| `DateTimeUtils.UtcOfEpochMilli` | src/main/java/in/ashwanik/utils/DateTimeUtils.java:130 | `LocalDateTime.ofInstant(Instant.ofEpochMilli(millis), UTC)` cannot fail for a `long`, gives a valid date-time on a whole millisecond, and converts back to exactly `millis`; together with `ToUtcOfToUtcMillis` this fixes the date-time |
| `DateTimeUtils.ToUtc` | src/main/java/in/ashwanik/utils/DateTimeUtils.java:126-131 | null exactly for millis `0`; for every other `long` a valid date-time on a whole millisecond whose UTC millis are exactly `millis` |
| `DateTimeUtils.ToUtcMillis` | src/main/java/in/ashwanik/utils/DateTimeUtils.java:139-141 | `toUTCMillis` gives the instant's epoch seconds times 1000 plus its whole milliseconds, at any offset; it throws `DateTimeException` when the UTC date-time leaves the supported years and `ArithmeticException` when the count overflows a `long` |
| `DateTimeUtils.ToUtcRoundTrip` | src/test/java/in/ashwanik/utils/DateTimeUtilsUnitTest.java:46-61 | for every non-zero `long`, `toUTC` gives a valid date-time and `toUTCMillis` of it at UTC gives the millis back |
| `DateTimeUtils.ToUtcOfToUtcMillis` | src/main/java/in/ashwanik/utils/DateTimeUtils.java:126-141 | a valid date-time on a whole millisecond comes back from `toUTC` of its UTC millis, unless those millis are zero or fail |
| `DateTimeUtils.GetNow` | src/main/java/in/ashwanik/utils/DateTimeUtils.java:213-215 | `ZonedDateTime.now(UTC)` is a valid date-time at offset 0 denoting the clock reading's second and nano; it throws `DateTimeException` exactly for a reading outside the supported years |
| `DateTimeUtils.GetUtcNow` | src/main/java/in/ashwanik/utils/DateTimeUtils.java:148-150 | `getUtcNow()` is the valid date-time whose UTC epoch second and nano are the clock reading's, and fails exactly outside the supported years |
| `DateTimeUtils.GetUtcNowMillis` | src/main/java/in/ashwanik/utils/DateTimeUtils.java:157-159 | `getUtcNowMills()` is the clock reading's own epoch millis, with the same exceptions as `toUTCMillis` |
| `DateTimeUtils.UtcNowAgrees` | src/main/java/in/ashwanik/utils/DateTimeUtils.java:148-159 | at one clock reading, `getUtcNow()` is valid, its `toUTCMillis` equals `getUtcNowMills()`, and both are the instant's epoch millis |
| `DateTimeUtils.ToUtcMillisOfSameInstant` | src/test/java/in/ashwanik/utils/DateTimeUtilsUnitTest.java:52-55 | a zoned date-time at any offset denoting the clock reading has the same `toUTCMillis` as `getUtcNowMills()` |
| `DateTimeUtils.GetUtcIsoString` | src/main/java/in/ashwanik/utils/DateTimeUtils.java:167-169 | the text is the signed, zero-padded year (a `+` only above 9999), two-digit month and day, `T`, `HH:mm`, then `:ss` unless seconds and nanos are both zero, followed by a 3/6/9-digit fraction only when nanos are non-zero, and `Z`; it parses back to the date-time it was made from |
| `DateTimeUtils.DigitsOfExample` | src/test/java/in/ashwanik/utils/DateTimeUtilsUnitTest.java:66 | the date 2019-10-01 prints as `2019-10-01` and the field 5 as `05` |
| `DateTimeUtils.UtcIsoStringExample` | src/test/java/in/ashwanik/utils/DateTimeUtilsUnitTest.java:64-67 | 2019-10-01T05:05:05 prints as `2019-10-01T05:05:05Z` |
| `DateTimeUtils.UtcIsoStringOmitsZeroSeconds` | src/main/java/in/ashwanik/utils/DateTimeUtils.java:161-169 | with seconds and nanos both zero the seconds are left out: 2019-10-01T05:05 prints as `2019-10-01T05:05Z` |
| `DateTimeUtils.GetStartOfDay` | src/main/java/in/ashwanik/utils/DateTimeUtils.java:177-179 | hour, minute and second become 0; the date and the nanos are kept; the result is valid |
| `DateTimeUtils.GetEndOfDay` | src/main/java/in/ashwanik/utils/DateTimeUtils.java:186-188 | hour, minute and second become 23:59:59; the date and the nanos are kept; the result is valid |
| `DateTimeUtils.DayBoundsContain` | src/main/java/in/ashwanik/utils/DateTimeUtils.java:171-188 | a date-time lies between its start and end of day, which sit at the day's first and last whole second on the timeline, plus its nanos |
| `DateTimeUtils.DayBoundsIdempotent` | src/main/java/in/ashwanik/utils/DateTimeUtils.java:177-188 | truncating to either end of the day twice, in any order, equals truncating once to the outer end |
| `DateTimeUtils.DayBoundsExample` | src/test/java/in/ashwanik/utils/DateTimeUtilsUnitTest.java:81-91 | 2019-10-01T05:05:05 starts at 2019-10-01T00:00:00 and ends at 2019-10-01T23:59:59 |
| `DateTimeUtils.GetFirstDayOfMonth` | src/main/java/in/ashwanik/utils/DateTimeUtils.java:196-199 | a valid date in the same year and month, on day 1 |
| `DateTimeUtils.GetLastDayOfMonth` | src/main/java/in/ashwanik/utils/DateTimeUtils.java:207-210 | a valid date in the same year and month, on day 28 to 31, after which the month has no further day |
| `DateTimeUtils.MonthBounds` | src/main/java/in/ashwanik/utils/DateTimeUtils.java:196-210 | the date lies between the first and last day of its month, the span is the month's length, and the day after the last is the first day of the next month |
| `DateTimeUtils.LastDayIsLast` | src/main/java/in/ashwanik/utils/DateTimeUtils.java:207-210 | every day of that month is at most the last day, and the last day is the 29th exactly in February of a leap year |
| `DateTimeUtils.MonthBoundsExample` | src/test/java/in/ashwanik/utils/DateTimeUtilsUnitTest.java:69-79 | October 2019 runs from 2019-10-01 to 2019-10-31 |
| `JavaTime.CompareToFollowsTimeline` | src/main/java/in/ashwanik/utils/DateTimeUtils.java:50 | `LocalDateTime.compareTo` is negative exactly when the first valid value is earlier on the timeline, and zero exactly when they coincide |
| `JavaTime.CompareToZero` | src/main/java/in/ashwanik/utils/DateTimeUtils.java:103-104 | `isEqual` holds exactly on equal values |
| `JavaTime.CompareToAntisymmetric` | src/main/java/in/ashwanik/utils/DateTimeUtils.java:103-104 | `isBefore(a, b)` holds exactly when `isAfter(b, a)` does |
| `JavaTime.NotAfterTransitive` | src/main/java/in/ashwanik/utils/DateTimeUtils.java:50 | "not after" is transitive, as a maximum over a stream needs |
| `JavaTime.NotAfterTotal` | src/main/java/in/ashwanik/utils/DateTimeUtils.java:75 | any two values are comparable, as a minimum over a stream needs |
| `JavaTime.BetweenSentinels` | src/main/java/in/ashwanik/utils/DateTimeUtils.java:44 | every valid date-time lies between `LocalDateTime.MIN` and `LocalDateTime.MAX` |
| `JavaTime.OfEpochSecondInverse` | src/main/java/in/ashwanik/utils/DateTimeUtils.java:130 | `ofEpochSecond` fails exactly when the local epoch day leaves the supported years; otherwise it gives a valid date-time with that epoch second and nano |
| `JavaTime.OfEpochSecondOfEpochSecond` | src/main/java/in/ashwanik/utils/DateTimeUtils.java:117 | a valid date-time is rebuilt exactly from its own epoch second and nano at any offset |
| `JavaTime.InstantOfEpochMilli` | src/main/java/in/ashwanik/utils/DateTimeUtils.java:130 | `Instant.ofEpochMilli` gives a valid instant whose seconds and whole milliseconds add back to the millis, with nanos a whole number of milliseconds |
| `JavaTime.ToEpochMilliExact` | src/main/java/in/ashwanik/utils/DateTimeUtils.java:140 | both branches of `Instant.toEpochMilli` compute seconds times 1000 plus whole milliseconds, failing exactly when that overflows a `long` |
| `JavaTime.EpochMilliRoundTrip` | src/main/java/in/ashwanik/utils/DateTimeUtils.java:130-140 | `toEpochMilli(ofEpochMilli(m))` is `m` for every `long` |
| `JavaTime.ToInstantSucceeds` | src/main/java/in/ashwanik/utils/DateTimeUtils.java:140 | `toInstant` of a valid zoned date-time never fails and keeps its epoch second and nano |
| `JavaTime.WithZoneSameInstantUtcKeepsInstant` | src/main/java/in/ashwanik/utils/DateTimeUtils.java:140 | `withZoneSameInstant(UTC)` fails exactly when the UTC date-time leaves the supported years; otherwise it is valid, at offset 0, and at the same instant |
| `IsoCalendar.DaysInMonth` | src/main/java/in/ashwanik/utils/DateTimeUtils.java:208 | every month has 28 to 31 days |
| `IsoCalendar.EpochDayOfDateOfEpochDay` | src/main/java/in/ashwanik/utils/DateTimeUtils.java:130 | every epoch day maps to a calendar date whose epoch day is that day |
| `IsoCalendar.DateOfEpochDayOfEpochDay` | src/main/java/in/ashwanik/utils/DateTimeUtils.java:140 | every calendar date comes back from its epoch day |
| `IsoCalendar.EpochDayOrder` | src/main/java/in/ashwanik/utils/DateTimeUtils.java:50 | on calendar dates, year-month-day order is epoch-day order, and equal epoch days mean equal dates |
| `IsoCalendar.EpochDayStrictlyMonotone` | src/main/java/in/ashwanik/utils/DateTimeUtils.java:50 | a date earlier in year-month-day order has a smaller epoch day |
| `IsoCalendar.EpochDayRange` | src/main/java/in/ashwanik/utils/DateTimeUtils.java:130 | a calendar date is within the supported years exactly when its epoch day is within the range `ofEpochDay` accepts |
| `IsoCalendar.LastDayThenFirstDay` | src/main/java/in/ashwanik/utils/DateTimeUtils.java:196-210 | the day after the last day of a month is the first day of the next month |
| `IsoFormat.ParseUtcIsoStringInverse` | src/main/java/in/ashwanik/utils/DateTimeUtils.java:168 | the ISO text of every valid date-time at UTC parses back to it |
| `IsoFormat.UtcIsoStringInjective` | src/main/java/in/ashwanik/utils/DateTimeUtils.java:168 | two valid date-times with the same ISO text are equal |
| `IsoFormat.LocalDateToStringShape` | src/main/java/in/ashwanik/utils/DateTimeUtils.java:168 | `LocalDate.toString()` is the signed year of at least four digits, then the two-digit month and day |
| `IsoFormat.LocalTimeToStringShape` | src/main/java/in/ashwanik/utils/DateTimeUtils.java:168 | `LocalTime.toString()` is `HH:mm`, then `:ss` unless seconds and nanos are both zero, followed by a 3-, 6- or 9-digit fraction only when nanos are non-zero |
| `IsoFormat.YearShape` | src/main/java/in/ashwanik/utils/DateTimeUtils.java:168 | the JDK's year printing, which adds or subtracts 10000 and deletes the extra digit, gives a `+` above 9999, a `-` below zero, and zero padding to four digits |
| `IsoFormat.NatToStringDenotes` | src/main/java/in/ashwanik/utils/DateTimeUtils.java:168 | `Integer.toString` of a non-negative number is a non-empty digit string that reads back as the number |

## Left out

- The private constructor that throws `UnsupportedOperationException`
  (lines 21-23): it has no behaviour to model.
- `toLocalDateTime`'s time-zone lookup (`calendar.getTimeZone()`, the
  fallback to `ZoneId.systemDefault()`) and `Calendar` internals. The
  conversion of a non-null calendar is an injected function.
- Region time zones and daylight-saving rules. A `ZonedDateTime` is a local
  date-time plus a fixed offset within ±18:00. Offset 0 is
  `ZoneOffset.UTC`, which is what `withZoneSameInstant(UTC)` and
  `atZone(UTC)` use here.
- The system clock that `ZonedDateTime.now` reads. `getNow`, `getUtcNow`
  and `getUtcNowMills` are modelled, but they take the clock reading as an
  `Instant` parameter instead of reading it.
- Null arguments to parameters the source dereferences (`isBetween`'s
  value, `toUTCMillis`, `getUtcIsoString`, `getStartOfDay`, `getEndOfDay`,
  the month helpers, a null varargs array). The Java code throws
  `NullPointerException` there. These parameters are non-optional in the
  model, so that failure cannot be expressed.
- `DateTimeUtils.GetStartOfDay`, `DateTimeUtils.GetEndOfDay`,
  `DateTimeUtils.GetFirstDayOfMonth`, `DateTimeUtils.GetLastDayOfMonth`,
  `DateTimeUtils.GetUtcIsoString`: these require a valid date-time. Every
  Java `LocalDateTime` is valid, so this excludes no real input.
- `DateTimeUtils.ToUtcMillis`: `EpochSecond` is unbounded, whereas the
  JDK's `toEpochSecond` computes it in a `long`. That `long` cannot
  overflow for a valid zoned date-time, since its magnitude stays below
  about 3.2·10^16.
- `LocalDate.toEpochDay` and `ofEpochDay` are written with the March-based
  era formulas. They compute the same function as the JDK's own
  arithmetic, but are not a line-by-line copy of it.
- `IsoFormat` renders `LocalDateTime.toString()` followed by `Z`. A
  `ZonedDateTime` at `ZoneOffset.UTC` prints exactly that, because its
  zone is its offset and no `[zone]` suffix is added. Other zones are not
  rendered.

=== FILE: date_time_utils.dfy ===
/**
 * `DateTimeUtils`: static helpers over `java.time` values.
 *
 * A `null` argument or result is `None`. A `Calendar` is any value of a
 * type parameter `C` together with the conversion `toLocalDateTime`
 * applies to a non-null calendar (its zone lookup is not modelled). A
 * `java.util.Date` is its epoch milliseconds, since `Date.toInstant()` is
 * `Instant.ofEpochMilli(getTime())`. The system clock is an `Instant`
 * passed in.
 */
module DateTimeUtils {
  import opened Wrappers
  import opened IsoCalendar
  import opened JavaTime
  import opened IsoFormat

  // ---------------------------------------------------------------------
  // Calendars

  /** `toLocalDateTime(Calendar)`: `null` stays `null`; otherwise the calendar's conversion. */
  function ToLocalDateTime<C(!new)>(calendar: Option<C>, convert: C -> LocalDateTime): (r: Option<LocalDateTime>)
    ensures r.None? <==> calendar.None?
    ensures calendar.Some? ==> r == Some(convert(calendar.value))
  {
    match calendar
    case None => None
    case Some(c) => Some(convert(c))
  }

  /** `filter(Objects::nonNull)`: the present values, in order. */
  function NonNull<T(!new)>(xs: seq<Option<T>>): (ys: seq<T>)
    ensures |ys| <= |xs|
    ensures forall y :: y in ys <==> Some(y) in xs
  {
    if |xs| == 0 then []
    else
      var init := NonNull(xs[..|xs| - 1]);
      assert xs == xs[..|xs| - 1] + [xs[|xs| - 1]];
      match xs[|xs| - 1]
      case None => init
      case Some(x) => init + [x]
  }

  /**
   * Filtering keeps order and multiplicity: the present values of two
   * stretches placed end to end are those of the first followed by those
   * of the second. With `NonNullOfOne` this pins down every result.
   */
  lemma {:induction false} NonNullConcat<T(!new)>(xs: seq<Option<T>>, ys: seq<Option<T>>)
    ensures NonNull(xs + ys) == NonNull(xs) + NonNull(ys)
    decreases |ys|
  {
    var zs := xs + ys;
    if |ys| == 0 {
      assert zs == xs;
    } else {
      assert zs[..|zs| - 1] == xs + ys[..|ys| - 1];
      assert zs[|zs| - 1] == ys[|ys| - 1];
      NonNullConcat(xs, ys[..|ys| - 1]);
    }
  }

  /** A single entry: `null` is dropped, a present value is kept. */
  lemma NonNullOfOne<T(!new)>(x: Option<T>)
    ensures NonNull([x]) == if x.Some? then [x.value] else []
  {
    assert [x][..0] == [];
  }

  /** There are present values exactly when some entry is not `null`. */
  lemma NonNullEmpty<T(!new)>(xs: seq<Option<T>>)
    ensures |NonNull(xs)| > 0 <==> exists i :: 0 <= i < |xs| && xs[i].Some?
  {
    var present := NonNull(xs);
    if |present| > 0 {
      assert present[0] in present;
    }
    forall i | 0 <= i < |xs| && xs[i].Some?
      ensures |present| > 0
    {
      assert xs[i].value in present;
    }
  }

  /** Dropping a `null` entry leaves the present values as they were. */
  lemma {:induction false} NonNullSkipsNull<T(!new)>(xs: seq<Option<T>>, i: int)
    requires 0 <= i < |xs| && xs[i].None?
    ensures NonNull(xs[..i] + xs[i + 1..]) == NonNull(xs)
    decreases |xs|
  {
    var ys := xs[..i] + xs[i + 1..];
    if i < |xs| - 1 {
      assert ys[..|ys| - 1] == xs[..|xs| - 1][..i] + xs[..|xs| - 1][i + 1..];
      assert ys[|ys| - 1] == xs[|xs| - 1];
      NonNullSkipsNull(xs[..|xs| - 1], i);
    } else {
      assert ys == xs[..|xs| - 1];
    }
  }

  /**
   * `mapToDatetime`: the non-null calendars, each converted with
   * `toLocalDateTime`, in order.
   */
  function MapToDatetime<C(!new)>(dates: seq<Option<C>>, convert: C -> LocalDateTime): (r: seq<Option<LocalDateTime>>)
    ensures |r| == |NonNull(dates)|
    ensures forall i :: 0 <= i < |r| ==> r[i] == Some(convert(NonNull(dates)[i]))
  {
    var present := NonNull(dates);
    seq(|present|, i requires 0 <= i < |present| => ToLocalDateTime(Some(present[i]), convert))
  }

  // ---------------------------------------------------------------------
  // Max and min

  /**
   * `BinaryOperator.maxBy(LocalDateTime::compareTo)`: one of the two that
   * neither is after, and the second only when it is strictly later.
   */
  function MaxBy(a: LocalDateTime, b: LocalDateTime): (r: LocalDateTime)
    ensures r == a || r == b
    ensures NotAfter(a, r) && NotAfter(b, r)
    ensures r == b && b != a ==> CompareTo(b, a) > 0
  {
    CompareToZero(a, b);
    CompareToAntisymmetric(a, b);
    if CompareTo(a, b) >= 0 then a else b
  }

  /**
   * `BinaryOperator.minBy(LocalDateTime::compareTo)`: one of the two that
   * is after neither, and the second only when it is strictly earlier.
   */
  function MinBy(a: LocalDateTime, b: LocalDateTime): (r: LocalDateTime)
    ensures r == a || r == b
    ensures NotAfter(r, a) && NotAfter(r, b)
    ensures r == b && b != a ==> CompareTo(b, a) < 0
  {
    CompareToZero(a, b);
    CompareToAntisymmetric(a, b);
    if CompareTo(a, b) <= 0 then a else b
  }

  /** `stream.max(LocalDateTime::compareTo)`: a left fold with `maxBy`, empty on an empty stream. */
  function StreamMax(ds: seq<LocalDateTime>): (r: Option<LocalDateTime>)
    ensures r.None? <==> |ds| == 0
    ensures r.Some? ==> r.value in ds
    ensures r.Some? ==> forall d :: d in ds ==> NotAfter(d, r.value)
  {
    if |ds| == 0 then None
    else
      var last := ds[|ds| - 1];
      assert ds == ds[..|ds| - 1] + [last];
      match StreamMax(ds[..|ds| - 1])
      case None => Some(last)
      case Some(m) => Some(MaxBy(m, last))
  }

  /** `stream.min(LocalDateTime::compareTo)`: a left fold with `minBy`, empty on an empty stream. */
  function StreamMin(ds: seq<LocalDateTime>): (r: Option<LocalDateTime>)
    ensures r.None? <==> |ds| == 0
    ensures r.Some? ==> r.value in ds
    ensures r.Some? ==> forall d :: d in ds ==> NotAfter(r.value, d)
  {
    if |ds| == 0 then None
    else
      var last := ds[|ds| - 1];
      assert ds == ds[..|ds| - 1] + [last];
      match StreamMin(ds[..|ds| - 1])
      case None => Some(last)
      case Some(m) => Some(MinBy(m, last))
  }

  /**
   * `getMaxDateTime(LocalDateTime...)`: the latest non-null argument, or
   * `LocalDateTime.MIN` when there is none.
   */
  function GetMaxDateTime(dateTimes: seq<Option<LocalDateTime>>): (r: LocalDateTime)
    ensures (forall i :: 0 <= i < |dateTimes| ==> dateTimes[i].None?) ==> r == MIN
    ensures (exists i :: 0 <= i < |dateTimes| && dateTimes[i].Some?) ==>
              Some(r) in dateTimes && forall d :: Some(d) in dateTimes ==> NotAfter(d, r)
  {
    var present := NonNull(dateTimes);
    NonNullEmpty(dateTimes);
    StreamMax(present).GetOr(MIN)
  }

  /**
   * `getMinDateTime(LocalDateTime...)`: the earliest non-null argument, or
   * `LocalDateTime.MAX` when there is none.
   */
  function GetMinDateTime(dateTimes: seq<Option<LocalDateTime>>): (r: LocalDateTime)
    ensures (forall i :: 0 <= i < |dateTimes| ==> dateTimes[i].None?) ==> r == MAX
    ensures (exists i :: 0 <= i < |dateTimes| && dateTimes[i].Some?) ==>
              Some(r) in dateTimes && forall d :: Some(d) in dateTimes ==> NotAfter(r, d)
  {
    var present := NonNull(dateTimes);
    NonNullEmpty(dateTimes);
    StreamMin(present).GetOr(MAX)
  }

  /**
   * `getMaxDateTime(Calendar...)`: the latest converted non-null calendar,
   * or `LocalDateTime.MIN` when every calendar is null.
   */
  function GetMaxDateTimeOfCalendars<C(!new)>(dates: seq<Option<C>>, convert: C -> LocalDateTime): (r: LocalDateTime)
    ensures (forall i :: 0 <= i < |dates| ==> dates[i].None?) ==> r == MIN
    ensures (exists i :: 0 <= i < |dates| && dates[i].Some?) ==>
              (exists c :: Some(c) in dates && r == convert(c))
              && forall c :: Some(c) in dates ==> NotAfter(convert(c), r)
  {
    var mapped := MapToDatetime(dates, convert);
    CalendarsMapped(dates, convert);
    GetMaxDateTime(mapped)
  }

  /**
   * `getMinDateTime(Calendar...)`: the earliest converted non-null calendar,
   * or `LocalDateTime.MAX` when every calendar is null.
   */
  function GetMinDateTimeOfCalendars<C(!new)>(dates: seq<Option<C>>, convert: C -> LocalDateTime): (r: LocalDateTime)
    ensures (forall i :: 0 <= i < |dates| ==> dates[i].None?) ==> r == MAX
    ensures (exists i :: 0 <= i < |dates| && dates[i].Some?) ==>
              (exists c :: Some(c) in dates && r == convert(c))
              && forall c :: Some(c) in dates ==> NotAfter(r, convert(c))
  {
    var mapped := MapToDatetime(dates, convert);
    CalendarsMapped(dates, convert);
    GetMinDateTime(mapped)
  }

  /**
   * The converted calendars hold no `null`, and hold a value exactly when
   * some non-null calendar converts to it.
   */
  lemma CalendarsMapped<C(!new)>(dates: seq<Option<C>>, convert: C -> LocalDateTime)
    ensures forall i :: 0 <= i < |MapToDatetime(dates, convert)| ==> MapToDatetime(dates, convert)[i].Some?
    ensures forall d :: Some(d) in MapToDatetime(dates, convert) <==> exists c :: Some(c) in dates && d == convert(c)
    ensures (exists i :: 0 <= i < |dates| && dates[i].Some?) <==> |MapToDatetime(dates, convert)| > 0
  {
    var mapped := MapToDatetime(dates, convert);
    var present := NonNull(dates);
    forall d | Some(d) in mapped
      ensures exists c :: Some(c) in dates && d == convert(c)
    {
      var i :| 0 <= i < |mapped| && mapped[i] == Some(d);
      assert present[i] in present;
    }
    forall d | exists c :: Some(c) in dates && d == convert(c)
      ensures Some(d) in mapped
    {
      var c :| Some(c) in dates && d == convert(c);
      assert c in present;
      var i :| 0 <= i < |present| && present[i] == c;
      assert mapped[i] == Some(d);
    }
    if exists i :: 0 <= i < |dates| && dates[i].Some? {
      var i :| 0 <= i < |dates| && dates[i].Some?;
      assert dates[i].value in present;
    }
    if |mapped| > 0 {
      assert present[0] in present;
    }
  }

  /** A null calendar never changes the maximum or the minimum. */
  lemma NullCalendarIgnored<C(!new)>(dates: seq<Option<C>>, i: int, convert: C -> LocalDateTime)
    requires 0 <= i < |dates| && dates[i].None?
    ensures GetMaxDateTimeOfCalendars(dates[..i] + dates[i + 1..], convert) == GetMaxDateTimeOfCalendars(dates, convert)
    ensures GetMinDateTimeOfCalendars(dates[..i] + dates[i + 1..], convert) == GetMinDateTimeOfCalendars(dates, convert)
  {
    NonNullSkipsNull(dates, i);
  }

  /** With a non-null date-time present, the minimum is not after the maximum. */
  lemma MinNotAfterMax(dateTimes: seq<Option<LocalDateTime>>)
    requires exists i :: 0 <= i < |dateTimes| && dateTimes[i].Some?
    ensures NotAfter(GetMinDateTime(dateTimes), GetMaxDateTime(dateTimes))
  {
  }

  /** The maximum of valid date-times is the latest of them on the timeline. */
  lemma MaxIsLatest(dateTimes: seq<Option<LocalDateTime>>)
    requires forall d :: Some(d) in dateTimes ==> d.Valid()
    requires exists i :: 0 <= i < |dateTimes| && dateTimes[i].Some?
    ensures GetMaxDateTime(dateTimes).Valid()
    ensures forall d :: Some(d) in dateTimes ==> d.Valid() && EpochNano(d) <= EpochNano(GetMaxDateTime(dateTimes))
  {
    var m := GetMaxDateTime(dateTimes);
    forall d | Some(d) in dateTimes
      ensures EpochNano(d) <= EpochNano(m)
    {
      CompareToFollowsTimeline(d, m);
    }
  }

  /** The minimum of valid date-times is the earliest of them on the timeline. */
  lemma MinIsEarliest(dateTimes: seq<Option<LocalDateTime>>)
    requires forall d :: Some(d) in dateTimes ==> d.Valid()
    requires exists i :: 0 <= i < |dateTimes| && dateTimes[i].Some?
    ensures GetMinDateTime(dateTimes).Valid()
    ensures forall d :: Some(d) in dateTimes ==> d.Valid() && EpochNano(GetMinDateTime(dateTimes)) <= EpochNano(d)
  {
    var m := GetMinDateTime(dateTimes);
    forall d | Some(d) in dateTimes
      ensures EpochNano(m) <= EpochNano(d)
    {
      CompareToFollowsTimeline(m, d);
    }
  }

  // ---------------------------------------------------------------------
  // Range check

  /**
   * `isBetween(localDateTime, from, to)`: inside the range, both ends
   * included; a null bound is `LocalDateTime.MIN` or `LocalDateTime.MAX`.
   */
  function IsBetween(dateTime: LocalDateTime, from: Option<LocalDateTime>, to: Option<LocalDateTime>): (r: bool)
    ensures r <==> NotAfter(from.GetOr(MIN), dateTime) && NotAfter(dateTime, to.GetOr(MAX))
    ensures dateTime.Valid() && from.None? && to.None? ==> r
  {
    var currentFrom := from.GetOr(MIN);
    var currentTo := to.GetOr(MAX);
    BetweenSentinelsIfValid(dateTime);
    (IsAfter(dateTime, currentFrom) || IsEqual(dateTime, currentFrom))
    && (IsBefore(dateTime, currentTo) || IsEqual(dateTime, currentTo))
  }

  /** Every valid date-time lies between the sentinels. */
  lemma BetweenSentinelsIfValid(dt: LocalDateTime)
    ensures dt.Valid() ==> NotAfter(MIN, dt) && NotAfter(dt, MAX)
  {
    if dt.Valid() {
      BetweenSentinels(dt);
    }
  }

  /** For valid values, `isBetween` is containment in the closed interval of the timeline. */
  lemma IsBetweenOnTimeline(dateTime: LocalDateTime, from: Option<LocalDateTime>, to: Option<LocalDateTime>)
    requires dateTime.Valid()
    requires from.Some? ==> from.value.Valid()
    requires to.Some? ==> to.value.Valid()
    ensures IsBetween(dateTime, from, to)
        <==> EpochNano(from.GetOr(MIN)) <= EpochNano(dateTime) <= EpochNano(to.GetOr(MAX))
  {
    MinMaxValid();
    IntervalOnTimeline(dateTime, from.GetOr(MIN), to.GetOr(MAX));
  }

  /** Lying between two bounds by `compareTo` is lying between them on the timeline. */
  lemma IntervalOnTimeline(dateTime: LocalDateTime, lo: LocalDateTime, hi: LocalDateTime)
    requires dateTime.Valid() && lo.Valid() && hi.Valid()
    ensures NotAfter(lo, dateTime) && NotAfter(dateTime, hi)
        <==> EpochNano(lo) <= EpochNano(dateTime) <= EpochNano(hi)
  {
    NotAfterOnTimeline(lo, dateTime);
    NotAfterOnTimeline(dateTime, hi);
  }

  /** "Not after" on valid values is "no later" on the timeline. */
  lemma NotAfterOnTimeline(a: LocalDateTime, b: LocalDateTime)
    requires a.Valid() && b.Valid()
    ensures NotAfter(a, b) <==> EpochNano(a) <= EpochNano(b)
  {
    CompareToFollowsTimeline(a, b);
  }

  /** The sentinels are themselves valid date-times. */
  lemma MinMaxValid()
    ensures MIN.Valid() && MAX.Valid()
  {
  }

  // ---------------------------------------------------------------------
  // UTC conversions

  /** `toUTC(Date)`: `null` stays `null`; a date's millis, zero included, become a UTC date-time. */
  function ToUtcOfDate(date: Option<int>): (r: Option<LocalDateTime>)
    requires date.Some? ==> IsLong(date.value)
    ensures r.None? <==> date.None?
    ensures r.Some? ==> r.value.Valid() && ToUtcMillis(AtUtc(r.value)) == Success(date.value)
    ensures r.Some? ==> r.value.nano % NANOS_PER_MILLI == 0
  {
    match date
    case None => None
    case Some(millis) => Some(UtcOfEpochMilli(millis))
  }

  /** `LocalDateTime.ofInstant(Instant.ofEpochMilli(millis), ZoneOffset.UTC)`, which cannot throw for a `long`. */
  function UtcOfEpochMilli(millis: int): (dt: LocalDateTime)
    requires IsLong(millis)
    ensures dt.Valid()
    ensures ToUtcMillis(AtUtc(dt)) == Success(millis)
    ensures dt.nano % NANOS_PER_MILLI == 0
  {
    var instant := InstantOfEpochMilli(millis);
    OfEpochSecondInverse(instant.seconds, instant.nanos, 0);
    var dt := OfEpochSecond(instant.seconds, instant.nanos, 0).value;
    dt
  }

  /** `toUTC(long)`: zero means "no timestamp" and gives `null`; other millis give their UTC date-time. */
  function ToUtc(millis: int): (r: Option<LocalDateTime>)
    requires IsLong(millis)
    ensures r.None? <==> millis == 0
    ensures r.Some? ==> r.value.Valid() && r.value.nano % NANOS_PER_MILLI == 0
    ensures r.Some? ==> ToUtcMillis(AtUtc(r.value)) == Success(millis)
  {
    if millis == 0 then None else Some(UtcOfEpochMilli(millis))
  }

  /**
   * The outcome of counting the UTC milliseconds of the instant `seconds`
   * and `nano` past the epoch: `DateTimeException` when its UTC
   * date-time leaves the supported years, `ArithmeticException` when the
   * count leaves the `long` range, and otherwise the whole milliseconds,
   * with the fraction truncated toward the past.
   */
  function UtcMillisOutcome(seconds: int, nano: int): Result<int, Error> {
    var millis := seconds * MILLIS_PER_SECOND + nano / NANOS_PER_MILLI;
    if seconds < MIN_EPOCH_DAY * SECONDS_PER_DAY || (MAX_EPOCH_DAY + 1) * SECONDS_PER_DAY <= seconds then
      Failure(DateTimeException)
    else if !IsLong(millis) then Failure(ArithmeticException)
    else Success(millis)
  }

  /**
   * `toUTCMillis(ZonedDateTime)`: re-anchor to UTC, take the instant, and
   * count its milliseconds. The result is the milliseconds of the zoned
   * date-time's instant, whatever its offset.
   */
  function ToUtcMillis(z: ZonedDateTime): (r: Result<int, Error>)
    requires z.Valid()
    ensures r == UtcMillisOutcome(EpochSecond(z.dateTime, z.offset), z.dateTime.nano)
  {
    WithZoneSameInstantUtcKeepsInstant(z);
    match WithZoneSameInstantUtc(z)
    case Failure(e) => Failure(e)
    case Success(utc) =>
      ToInstantSucceeds(utc);
      ToEpochMilliExact(Instant(EpochSecond(utc.dateTime, 0), utc.dateTime.nano));
      match ToInstant(utc)
      case Failure(e) => Failure(e)
      case Success(instant) => ToEpochMilli(instant)
  }

  /**
   * For every non-zero `long`, `toUTC` gives a valid date-time, and
   * `toUTCMillis` of it at UTC gives the millis back exactly.
   */
  lemma ToUtcRoundTrip(millis: int)
    requires IsLong(millis) && millis != 0
    ensures ToUtc(millis).Some?
    ensures ToUtc(millis).value.Valid()
    ensures ToUtcMillis(AtUtc(ToUtc(millis).value)) == Success(millis)
  {
  }

  /**
   * A valid date-time on a whole millisecond comes back from its UTC
   * millis, unless those millis are the reserved zero or overflow.
   */
  lemma {:induction false} ToUtcOfToUtcMillis(dt: LocalDateTime)
    requires dt.Valid() && dt.nano % NANOS_PER_MILLI == 0
    ensures ToUtcMillis(AtUtc(dt)).Success? && ToUtcMillis(AtUtc(dt)).value != 0 ==>
              ToUtc(ToUtcMillis(AtUtc(dt)).value) == Some(dt)
  {
    var r := ToUtcMillis(AtUtc(dt));
    if r.Success? && r.value != 0 {
      var millis := r.value;
      var s := EpochSecond(dt, 0);
      assert millis == s * 1000 + dt.nano / NANOS_PER_MILLI;
      var instant := InstantOfEpochMilli(millis);
      assert instant.seconds == s && instant.nanos == dt.nano;
      OfEpochSecondOfEpochSecond(dt, 0);
    }
  }

  /**
   * `getUtcNowMills()`: the UTC epoch millis of `ZonedDateTime.now(ZoneOffset.UTC)`
   * for the clock reading `now`, which are the reading's own millis.
   */
  function GetUtcNowMillis(now: Instant): (r: Result<int, Error>)
    requires now.Valid()
    ensures r == UtcMillisOutcome(now.seconds, now.nanos)
  {
    match GetNow(now)
    case Failure(e) => Failure(e)
    case Success(z) =>
      ToInstantSucceeds(z);
      ToEpochMilliExact(now);
      match ToInstant(z)
      case Failure(e) => Failure(e)
      case Success(instant) => ToEpochMilli(instant)
  }

  /**
   * `getNow()`: `ZonedDateTime.now(ZoneOffset.UTC)` for the clock reading
   * `now`, a valid UTC date-time at that instant; it throws only for a
   * reading outside the supported years.
   */
  function GetNow(now: Instant): (r: Result<ZonedDateTime, Error>)
    requires now.Valid()
    ensures r.Success? <==> MIN_EPOCH_DAY * SECONDS_PER_DAY <= now.seconds < (MAX_EPOCH_DAY + 1) * SECONDS_PER_DAY
    ensures r.Failure? ==> r.error == DateTimeException
    ensures r.Success? ==>
              r.value.Valid() && r.value.offset == 0
              && EpochSecond(r.value.dateTime, 0) == now.seconds && r.value.dateTime.nano == now.nanos
  {
    OfEpochSecondInverse(now.seconds, now.nanos, 0);
    match OfEpochSecond(now.seconds, now.nanos, 0)
    case Failure(e) => Failure(e)
    case Success(dt) => Success(AtUtc(dt))
  }

  /**
   * `getUtcNow()`: the UTC date-time of the clock reading `now`, the one
   * valid date-time whose UTC epoch second and nano are the reading's.
   */
  function GetUtcNow(now: Instant): (r: Result<LocalDateTime, Error>)
    requires now.Valid()
    ensures r.Success? <==> MIN_EPOCH_DAY * SECONDS_PER_DAY <= now.seconds < (MAX_EPOCH_DAY + 1) * SECONDS_PER_DAY
    ensures r.Success? ==> r.value.Valid() && EpochSecond(r.value, 0) == now.seconds && r.value.nano == now.nanos
  {
    match GetNow(now)
    case Failure(e) => Failure(e)
    case Success(z) => Success(z.dateTime)
  }

  /**
   * Read at the same instant, `getUtcNow()` converted by `toUTCMillis`
   * and `getUtcNowMills()` agree exactly, and both equal the instant's
   * own epoch millis.
   */
  lemma UtcNowAgrees(now: Instant)
    requires now.Valid()
    ensures GetUtcNow(now).Success? ==>
              GetUtcNow(now).value.Valid()
              && ToUtcMillis(AtUtc(GetUtcNow(now).value)) == GetUtcNowMillis(now)
              && GetUtcNowMillis(now) == ToEpochMilli(now)
  {
    ToEpochMilliExact(now);
  }

  /**
   * `toUTCMillis` depends only on the instant: a zoned date-time at any
   * offset that denotes the clock reading gives `getUtcNowMills()`.
   */
  lemma ToUtcMillisOfSameInstant(now: Instant, z: ZonedDateTime)
    requires now.Valid() && z.Valid()
    requires EpochSecond(z.dateTime, z.offset) == now.seconds && z.dateTime.nano == now.nanos
    ensures ToUtcMillis(z) == GetUtcNowMillis(now)
  {
  }

  // ---------------------------------------------------------------------
  // Formatting

  /** `getUtcIsoString`: ISO-8601 text of the date-time at UTC, ending in `Z`. */
  function GetUtcIsoString(dt: LocalDateTime): (s: string)
    requires dt.Valid()
    ensures |s| >= 1 && s[|s| - 1] == 'Z'
    ensures s == YearText(dt.year) + "-" + Padded(dt.month, 2) + "-" + Padded(dt.day, 2)
                 + "T" + TimeText(dt.hour, dt.minute, dt.second, dt.nano) + "Z"
    ensures ParseUtcIsoString(s) == Some(dt)
  {
    LocalDateToStringShape(dt.Date());
    LocalTimeToStringShape(dt);
    ParseUtcIsoStringInverse(dt);
    UtcIsoString(dt)
  }

  /** The fields of the 2019-10-01 examples, printed. */
  lemma DigitsOfExample()
    ensures LocalDateToString(LocalDate(2019, 10, 1)) == "2019-10-01"
    ensures Padded(5, 2) == "05"
  {
    Pow10Values();
    PaddedIsNatToString(2019, 4);
    assert Padded(2019, 4) == "2019";
    assert YearText(2019) == "2019";
    assert Padded(10, 2) == "10";
    assert Padded(1, 2) == "01";
    assert Padded(5, 2) == "05";
    LocalDateToStringShape(LocalDate(2019, 10, 1));
  }

  /** 2019-10-01T05:05:05 prints as `2019-10-01T05:05:05Z`. */
  lemma UtcIsoStringExample()
    ensures GetUtcIsoString(LocalDateTime(2019, 10, 1, 5, 5, 5, 0)) == "2019-10-01T05:05:05Z"
  {
    var dt := LocalDateTime(2019, 10, 1, 5, 5, 5, 0);
    DigitsOfExample();
    LocalTimeToStringShape(dt);
    assert LocalTimeToString(5, 5, 5, 0) == "05:05:05";
  }

  /** With seconds and nanos both zero the seconds are left out: `2019-10-01T05:05Z`. */
  lemma UtcIsoStringOmitsZeroSeconds()
    ensures GetUtcIsoString(LocalDateTime(2019, 10, 1, 5, 5, 0, 0)) == "2019-10-01T05:05Z"
  {
    var dt := LocalDateTime(2019, 10, 1, 5, 5, 0, 0);
    DigitsOfExample();
    LocalTimeToStringShape(dt);
    assert LocalTimeToString(5, 5, 0, 0) == "05:05";
  }

  // ---------------------------------------------------------------------
  // Day boundaries

  /** `withHour`, `withMinute` and `withSecond`, for values in range. */
  function WithHour(dt: LocalDateTime, hour: int): LocalDateTime
    requires 0 <= hour <= 23
  {
    dt.(hour := hour)
  }

  function WithMinute(dt: LocalDateTime, minute: int): LocalDateTime
    requires 0 <= minute <= 59
  {
    dt.(minute := minute)
  }

  function WithSecond(dt: LocalDateTime, second: int): LocalDateTime
    requires 0 <= second <= 59
  {
    dt.(second := second)
  }

  /** `getStartOfDay`: hour, minute and second set to zero; the date and nanos kept. */
  function GetStartOfDay(dt: LocalDateTime): (r: LocalDateTime)
    requires dt.Valid()
    ensures r.Valid()
    ensures r.Date() == dt.Date() && r.nano == dt.nano
    ensures r.hour == 0 && r.minute == 0 && r.second == 0
  {
    WithSecond(WithMinute(WithHour(dt, 0), 0), 0)
  }

  /** `getEndOfDay`: hour, minute and second set to 23:59:59; the date and nanos kept. */
  function GetEndOfDay(dt: LocalDateTime): (r: LocalDateTime)
    requires dt.Valid()
    ensures r.Valid()
    ensures r.Date() == dt.Date() && r.nano == dt.nano
    ensures r.hour == 23 && r.minute == 59 && r.second == 59
  {
    WithSecond(WithMinute(WithHour(dt, 23), 59), 59)
  }

  /**
   * A date-time lies between the start and the end of its day, and those
   * are the first and last whole second of the day on the timeline,
   * carrying the date-time's own nanos.
   */
  lemma DayBoundsContain(dt: LocalDateTime)
    requires dt.Valid()
    ensures IsBetween(dt, Some(GetStartOfDay(dt)), Some(GetEndOfDay(dt)))
    ensures EpochNano(GetStartOfDay(dt)) == EpochDay(dt.Date()) * SECONDS_PER_DAY * NANOS_PER_SECOND + dt.nano
    ensures EpochNano(GetEndOfDay(dt)) == (EpochDay(dt.Date()) + 1) * SECONDS_PER_DAY * NANOS_PER_SECOND - NANOS_PER_SECOND + dt.nano
  {
  }

  /** Truncating to either end of the day forgets the time fields the other end set. */
  lemma DayBoundsIdempotent(dt: LocalDateTime)
    requires dt.Valid()
    ensures GetStartOfDay(GetStartOfDay(dt)) == GetStartOfDay(dt)
    ensures GetStartOfDay(GetEndOfDay(dt)) == GetStartOfDay(dt)
    ensures GetEndOfDay(GetStartOfDay(dt)) == GetEndOfDay(dt)
    ensures GetEndOfDay(GetEndOfDay(dt)) == GetEndOfDay(dt)
  {
  }

  /** 2019-10-01T05:05:05 starts at 00:00:00 and ends at 23:59:59. */
  lemma DayBoundsExample()
    ensures GetStartOfDay(LocalDateTime(2019, 10, 1, 5, 5, 5, 0)) == LocalDateTime(2019, 10, 1, 0, 0, 0, 0)
    ensures GetEndOfDay(LocalDateTime(2019, 10, 1, 5, 5, 5, 0)) == LocalDateTime(2019, 10, 1, 23, 59, 59, 0)
  {
  }

  // ---------------------------------------------------------------------
  // Month boundaries

  /** `withDayOfMonth(day)` for a day the month has. */
  function WithDayOfMonth(dt: LocalDateTime, day: int): LocalDateTime
    requires 1 <= dt.month <= 12 && 1 <= day <= DaysInMonth(dt.year, dt.month)
  {
    dt.(day := day)
  }

  /** `getFirstDayOfMonth`: `with(TemporalAdjusters.firstDayOfMonth()).toLocalDate()`. */
  function GetFirstDayOfMonth(dt: LocalDateTime): (r: LocalDate)
    requires dt.Valid()
    ensures r.Valid()
    ensures r.year == dt.year && r.month == dt.month && r.day == 1
  {
    WithDayOfMonth(dt, 1).Date()
  }

  /**
   * `getLastDayOfMonth`: `with(TemporalAdjusters.lastDayOfMonth()).toLocalDate()`,
   * a day of the same month after which the month has no further day.
   */
  function GetLastDayOfMonth(dt: LocalDateTime): (r: LocalDate)
    requires dt.Valid()
    ensures r.Valid()
    ensures r.year == dt.year && r.month == dt.month
    ensures !LocalDate(r.year, r.month, r.day + 1).IsCalendarDate()
    ensures 28 <= r.day <= 31
  {
    WithDayOfMonth(dt, DaysInMonth(dt.year, dt.month)).Date()
  }

  /**
   * The month runs from its first to its last day: every day of the
   * month lies between them, the span is the month's length, and the day
   * after the last is the first day of the next month.
   */
  lemma {:induction false} MonthBounds(dt: LocalDateTime)
    requires dt.Valid()
    ensures var first, last := GetFirstDayOfMonth(dt), GetLastDayOfMonth(dt);
            && EpochDay(first) <= EpochDay(dt.Date()) <= EpochDay(last)
            && EpochDay(last) - EpochDay(first) + 1 == DaysInMonth(dt.year, dt.month)
            && EpochDay(last) + 1
               == EpochDay(LocalDate(NextMonth(dt.year, dt.month).0, NextMonth(dt.year, dt.month).1, 1))
  {
    var first, last := GetFirstDayOfMonth(dt), GetLastDayOfMonth(dt);
    EpochDayClosedForm(first);
    EpochDayClosedForm(last);
    EpochDayClosedForm(dt.Date());
    LastDayThenFirstDay(dt.year, dt.month);
  }

  /**
   * The last day of the month is its greatest day number: every day of
   * the month is at most it, and day 29 is last exactly in a leap February.
   */
  lemma LastDayIsLast(dt: LocalDateTime)
    requires dt.Valid()
    ensures forall d :: LocalDate(dt.year, dt.month, d).IsCalendarDate() ==> d <= GetLastDayOfMonth(dt).day
    ensures GetLastDayOfMonth(dt).day == 29 <==> dt.month == 2 && IsLeapYear(dt.year)
  {
  }

  /** October 2019 runs from 2019-10-01 to 2019-10-31. */
  lemma MonthBoundsExample()
    ensures GetFirstDayOfMonth(LocalDateTime(2019, 10, 1, 5, 5, 5, 0)) == LocalDate(2019, 10, 1)
    ensures GetLastDayOfMonth(LocalDateTime(2019, 10, 1, 5, 5, 5, 0)) == LocalDate(2019, 10, 31)
  {
  }
}

=== FILE: iso_calendar.dfy ===
/**
 * The ISO-8601 proleptic Gregorian calendar that `java.time` implements
 * (`IsoChronology`, `Month`, `LocalDate`): the leap-year rule, month
 * lengths, dates and their order, and the bijection between calendar
 * dates and epoch days (days counted from 1970-01-01).
 *
 * Epoch days are computed with the days-from-civil / civil-from-days
 * integer arithmetic: time is cut into 400-year eras of 146097 days, and
 * inside an era every year starts on 1 March, so that the leap day is the
 * last day of its year.
 */
module IsoCalendar {

  /** `Year.MIN_VALUE` and `Year.MAX_VALUE`: the years a `LocalDate` can hold. */
  const MIN_YEAR: int := -999999999
  const MAX_YEAR: int := 999999999

  /** Range of `ChronoField.EPOCH_DAY`, checked by `LocalDate.ofEpochDay`. */
  const MIN_EPOCH_DAY: int := -365243219162
  const MAX_EPOCH_DAY: int := 365241780471

  /** Days in one 400-year Gregorian cycle. */
  const DAYS_PER_ERA: int := 146097
  /** 0000-03-01 lies this many days before 1970-01-01. */
  const DAYS_0000_03_01_TO_1970: int := 719468

  /**
   * Every fourth year is a leap year, except centuries not divisible by
   * 400. Java tests `(year & 3) == 0` and `year % 100 != 0`; on negative
   * years these agree with Dafny's non-negative remainder being zero.
   */
  predicate IsLeapYear(year: int) {
    year % 4 == 0 && (year % 100 != 0 || year % 400 == 0)
  }

  /** `Month.length(leapYear)`: 28 to 31 days. */
  function DaysInMonth(year: int, month: int): (n: int)
    requires 1 <= month <= 12
    ensures 28 <= n <= 31
  {
    if month == 2 then (if IsLeapYear(year) then 29 else 28)
    else if month == 4 || month == 6 || month == 9 || month == 11 then 30
    else 31
  }

  /** A date: `LocalDate` and the date part of a `LocalDateTime`. */
  datatype LocalDate = LocalDate(year: int, month: int, day: int) {

    /** A day of the proleptic calendar, whatever its year. */
    predicate IsCalendarDate() {
      1 <= month <= 12 && 1 <= day <= DaysInMonth(year, month)
    }

    /** A date `LocalDate` can hold. */
    predicate Valid() {
      IsCalendarDate() && MIN_YEAR <= year <= MAX_YEAR
    }
  }

  /** Strict order of `LocalDate.compareTo`: year, then month, then day. */
  predicate DateBefore(a: LocalDate, b: LocalDate) {
    a.year < b.year || (a.year == b.year && (a.month < b.month || (a.month == b.month && a.day < b.day)))
  }

  // ---------------------------------------------------------------------
  // March-based years

  /** The March-based year holding a month: January and February close the previous one. */
  function MarchYear(year: int, month: int): int {
    if month <= 2 then year - 1 else year
  }

  /** Month index inside a March-based year: March is 0, February is 11. */
  function MarchMonth(month: int): int {
    if month > 2 then month - 3 else month + 9
  }

  /** The calendar month of a March-based month index. */
  function CalendarMonth(mp: int): int {
    if mp < 10 then mp + 3 else mp - 9
  }

  /** The calendar year of month index `mp` of March-based year `yy`. */
  function CalendarYear(yy: int, mp: int): int {
    if mp < 10 then yy else yy + 1
  }

  /** Days of a March-based year that come before its month index `mp`. */
  function MonthStart(mp: int): int {
    (153 * mp + 2) / 5
  }

  /** Length of March-based year `yy`: it ends with February of year `yy + 1`. */
  function MarchYearLength(yy: int): int {
    if IsLeapYear(yy + 1) then 366 else 365
  }

  /** Days of an era that come before its year `yoe` (0 to 399). */
  function YearOfEraStart(yoe: int): int {
    365 * yoe + yoe / 4 - yoe / 100
  }

  /** The year of an era holding its day `doe` (0 to 146096). */
  function YearOfEra(doe: int): int {
    (doe - doe / 1460 + doe / 36524 - doe / 146096) / 365
  }

  /** Days from 0000-03-01 to the first day (1 March) of March-based year `yy`. */
  function MarchYearStart(yy: int): int {
    365 * yy + yy / 4 - yy / 100 + yy / 400
  }

  // ---------------------------------------------------------------------
  // Days from civil and civil from days

  /** `LocalDate.toEpochDay`: days from 1970-01-01 to `d`. */
  function EpochDay(d: LocalDate): int
    requires 1 <= d.month <= 12
  {
    var yy := MarchYear(d.year, d.month);
    var era := yy / 400;
    var yoe := yy % 400;
    var doy := MonthStart(MarchMonth(d.month)) + d.day - 1;
    var doe := YearOfEraStart(yoe) + doy;
    era * DAYS_PER_ERA + doe - DAYS_0000_03_01_TO_1970
  }

  /** `LocalDate.ofEpochDay` without its range check: the date `z` days after 1970-01-01. */
  function DateOfEpochDay(z: int): LocalDate {
    var zz := z + DAYS_0000_03_01_TO_1970;
    DateOfEraDay(zz / DAYS_PER_ERA, zz % DAYS_PER_ERA)
  }

  /** The date on day `doe` of 400-year era `era`. */
  function DateOfEraDay(era: int, doe: int): LocalDate {
    var yoe := YearOfEra(doe);
    var doy := doe - YearOfEraStart(yoe);
    var mp := (5 * doy + 2) / 153;
    var day := doy - MonthStart(mp) + 1;
    var month := CalendarMonth(mp);
    LocalDate(era * 400 + yoe + (if month <= 2 then 1 else 0), month, day)
  }

  // ---------------------------------------------------------------------
  // Inside an era

  /** The leap-year rule repeats every 400 years. */
  lemma LeapYearPeriodic(era: int, k: int)
    ensures IsLeapYear(400 * era + k) == IsLeapYear(k)
  {
    Mod4Periodic(era, k);
    Mod100Periodic(era, k);
    Mod400Periodic(era, k);
  }

  lemma Mod4Periodic(era: int, k: int)
    ensures (400 * era + k) % 4 == k % 4
  {
    assert 400 * era + k == 4 * (100 * era + k / 4) + k % 4;
  }

  lemma Mod100Periodic(era: int, k: int)
    ensures (400 * era + k) % 100 == k % 100
  {
    assert 400 * era + k == 100 * (4 * era + k / 100) + k % 100;
  }

  lemma Mod400Periodic(era: int, k: int)
    ensures (400 * era + k) % 400 == k % 400
  {
    assert 400 * era + k == 400 * (era + k / 400) + k % 400;
  }

  /** Year `100c + 4q + r` of an era starts `36524c + 1461q + 365r` days into it. */
  lemma YearOfEraStartDecomposed(c: int, q: int, r: int)
    requires 0 <= c <= 3 && 0 <= q <= 24 && 0 <= r <= 3
    ensures YearOfEraStart(100 * c + 4 * q + r) == 36524 * c + 1461 * q + 365 * r
  {
    var k := 100 * c + 4 * q + r;
    assert k / 4 == 25 * c + q;
    assert k / 100 == c;
  }

  /** `YearOfEra` recovers year `100c + 4q + r` from any of its days. */
  lemma YearOfEraOfDay(c: int, q: int, r: int, doy: int)
    requires 0 <= c <= 3 && 0 <= q <= 24 && 0 <= r <= 3
    requires 0 <= doy < MarchYearLength(100 * c + 4 * q + r)
    ensures YearOfEra(YearOfEraStart(100 * c + 4 * q + r) + doy) == 100 * c + 4 * q + r
  {
    var k := 100 * c + 4 * q + r;
    YearOfEraStartDecomposed(c, q, r);
    var doe := 36524 * c + 1461 * q + 365 * r + doy;
    if doe != 146096 {
      assert doe / 146096 == 0;
      assert doe / 36524 == c;
      var x := (24 * c + q + 365 * r + doy) / 1460;
      assert doe / 1460 == 25 * c + q + x;
      assert 0 <= doy - x < 365;
      assert doe - doe / 1460 + doe / 36524 - doe / 146096 == 365 * k + (doy - x);
    }
  }

  /** Every year of an era is recovered from every one of its days. */
  lemma YearOfEraInverse(yoe: int, doy: int)
    requires 0 <= yoe <= 399
    requires 0 <= doy < MarchYearLength(yoe)
    ensures YearOfEra(YearOfEraStart(yoe) + doy) == yoe
  {
    YearOfEraOfDay(yoe / 100, yoe % 100 / 4, yoe % 4, doy);
  }

  /** Every day of an era falls inside the year `YearOfEra` gives it. */
  lemma YearOfEraCovers(doe: int)
    requires 0 <= doe < DAYS_PER_ERA
    ensures 0 <= YearOfEra(doe) <= 399
    ensures YearOfEraStart(YearOfEra(doe)) <= doe < YearOfEraStart(YearOfEra(doe)) + MarchYearLength(YearOfEra(doe))
  {
    var c, q, r, doy := DecomposeEraDay(doe);
    EraYearLength(c, q, r);
    YearOfEraStartDecomposed(c, q, r);
    YearOfEraOfDay(c, q, r, doy);
  }

  /**
   * A day of an era as centuries, four-year cycles, years and a day of
   * the year; only the last year of a cycle reaches day 365.
   */
  lemma DecomposeEraDay(doe: int) returns (c: int, q: int, r: int, doy: int)
    requires 0 <= doe < DAYS_PER_ERA
    ensures 0 <= c <= 3 && 0 <= q <= 24 && 0 <= r <= 3 && 0 <= doy <= 365
    ensures doe == 36524 * c + 1461 * q + 365 * r + doy
    ensures doy == 365 ==> r == 3 && (q < 24 || c == 3)
  {
    c := if doe / 36524 < 3 then doe / 36524 else 3;
    var rem1 := doe - 36524 * c;
    assert 0 <= rem1 <= 36524;
    assert c < 3 ==> rem1 < 36524;
    q := rem1 / 1461;
    var rem2 := rem1 - 1461 * q;
    r := if rem2 / 365 < 3 then rem2 / 365 else 3;
    doy := rem2 - 365 * r;
  }

  /** Year `100c + 4q + r` of an era is long exactly when the year after it is a leap year. */
  lemma EraYearLength(c: int, q: int, r: int)
    requires 0 <= c <= 3 && 0 <= q <= 24 && 0 <= r <= 3
    ensures MarchYearLength(100 * c + 4 * q + r) == if r == 3 && (q < 24 || c == 3) then 366 else 365
  {
    var n := 100 * c + 4 * q + r + 1;
    if r < 3 {
      assert n % 4 == r + 1;
    } else if q < 24 {
      assert n == 4 * (25 * c + q + 1);
      assert n % 100 == 4 * (q + 1);
    } else {
      assert n == 100 * (c + 1);
      assert n % 400 == 100 * (c + 1) % 400;
    }
  }

  // ---------------------------------------------------------------------
  // Inside a March-based year

  /** The months of a March-based year follow each other without gaps. */
  lemma MonthStartNext(yy: int, mp: int)
    requires 0 <= mp <= 10
    ensures MonthStart(mp + 1) == MonthStart(mp) + DaysInMonth(CalendarYear(yy, mp), CalendarMonth(mp))
  {
  }

  /** The month index is recovered from any day of that month. */
  lemma MonthOfDayInverse(yy: int, mp: int, d0: int)
    requires 0 <= mp <= 11
    requires 0 <= d0 < DaysInMonth(CalendarYear(yy, mp), CalendarMonth(mp))
    ensures (5 * (MonthStart(mp) + d0) + 2) / 153 == mp
  {
  }

  /** Every day of a March-based year falls inside the month the formula gives it. */
  lemma MonthOfDayCovers(yy: int, doy: int)
    requires 0 <= doy < MarchYearLength(yy)
    ensures 0 <= (5 * doy + 2) / 153 <= 11
    ensures MonthStart((5 * doy + 2) / 153) <= doy
    ensures doy < MonthStart((5 * doy + 2) / 153) + DaysInMonth(CalendarYear(yy, (5 * doy + 2) / 153), CalendarMonth((5 * doy + 2) / 153))
  {
  }

  // ---------------------------------------------------------------------
  // The round trips

  /** Any epoch day names a calendar date, and that date's epoch day is the one given. */
  lemma {:induction false} EpochDayOfDateOfEpochDay(z: int)
    ensures DateOfEpochDay(z).IsCalendarDate()
    ensures EpochDay(DateOfEpochDay(z)) == z
  {
    var zz := z + DAYS_0000_03_01_TO_1970;
    var era := zz / DAYS_PER_ERA;
    var doe := zz % DAYS_PER_ERA;
    assert zz == era * DAYS_PER_ERA + doe;
    EpochDayOfDateOfEraDay(era, doe);
  }

  /** Day `doe` of era `era` names a calendar date whose epoch day counts back to it. */
  lemma EpochDayOfDateOfEraDay(era: int, doe: int)
    requires 0 <= doe < DAYS_PER_ERA
    ensures DateOfEraDay(era, doe).IsCalendarDate()
    ensures EpochDay(DateOfEraDay(era, doe)) == era * DAYS_PER_ERA + doe - DAYS_0000_03_01_TO_1970
  {
    YearOfEraCovers(doe);
    var yoe := YearOfEra(doe);
    var doy := doe - YearOfEraStart(yoe);
    var yy := 400 * era + yoe;
    LeapYearPeriodic(era, yoe + 1);
    MonthOfDayCovers(yy, doy);
    var mp := (5 * doy + 2) / 153;
    var d := DateOfEraDay(era, doe);
    assert d == LocalDate(CalendarYear(yy, mp), CalendarMonth(mp), doy - MonthStart(mp) + 1);
    EpochDayOfParts(d, era, yoe, mp);
  }

  /** The epoch day of a date, given the era, year of era and month index it falls in. */
  lemma EpochDayOfParts(d: LocalDate, era: int, yoe: int, mp: int)
    requires 0 <= yoe <= 399 && 0 <= mp <= 11
    requires d.month == CalendarMonth(mp) && d.year == CalendarYear(400 * era + yoe, mp)
    ensures EpochDay(d) == era * DAYS_PER_ERA + YearOfEraStart(yoe) + MonthStart(mp) + d.day - 1 - DAYS_0000_03_01_TO_1970
  {
    var yy := 400 * era + yoe;
    assert MarchYear(d.year, d.month) == yy;
    assert MarchMonth(d.month) == mp;
    assert yy / 400 == era && yy % 400 == yoe;
  }

  /** A day of a month lies inside its March-based year. */
  lemma DayOfMarchYearBound(yy: int, mp: int, d0: int)
    requires 0 <= mp <= 11
    requires 0 <= d0 < DaysInMonth(CalendarYear(yy, mp), CalendarMonth(mp))
    ensures 0 <= MonthStart(mp) + d0 < MarchYearLength(yy)
  {
  }

  /** Splitting a day count into whole eras and a day of the era. */
  lemma EraSplit(era: int, doe: int)
    requires 0 <= doe < DAYS_PER_ERA
    ensures (era * DAYS_PER_ERA + doe) / DAYS_PER_ERA == era
    ensures (era * DAYS_PER_ERA + doe) % DAYS_PER_ERA == doe
  {
  }

  /** Splitting a March-based year into its era and year of era. */
  lemma YearSplit(yy: int)
    ensures yy == 400 * (yy / 400) + yy % 400
    ensures 0 <= yy % 400 <= 399
  {
  }

  /** A calendar date is recovered from its epoch day. */
  lemma {:induction false} DateOfEpochDayOfEpochDay(d: LocalDate)
    requires d.IsCalendarDate()
    ensures DateOfEpochDay(EpochDay(d)) == d
  {
    var era, yoe, mp, d0 := DecomposeDate(d);
    DateOfEpochDayOfParts(era, yoe, mp, d0);
  }

  /** A calendar date as a day of a month index of a year of an era. */
  lemma DecomposeDate(d: LocalDate) returns (era: int, yoe: int, mp: int, d0: int)
    requires d.IsCalendarDate()
    ensures 0 <= yoe <= 399 && 0 <= mp <= 11
    ensures 0 <= d0 < DaysInMonth(CalendarYear(400 * era + yoe, mp), CalendarMonth(mp))
    ensures d == LocalDate(CalendarYear(400 * era + yoe, mp), CalendarMonth(mp), d0 + 1)
  {
    var yy := MarchYear(d.year, d.month);
    YearSplit(yy);
    era, yoe := yy / 400, yy % 400;
    mp := MarchMonth(d.month);
    d0 := d.day - 1;
    assert CalendarMonth(mp) == d.month && CalendarYear(yy, mp) == d.year;
  }

  /** The date on day `d0` of month index `mp` of year `yoe` of era `era` comes back from its epoch day. */
  lemma DateOfEpochDayOfParts(era: int, yoe: int, mp: int, d0: int)
    requires 0 <= yoe <= 399 && 0 <= mp <= 11
    requires 0 <= d0 < DaysInMonth(CalendarYear(400 * era + yoe, mp), CalendarMonth(mp))
    ensures var d := LocalDate(CalendarYear(400 * era + yoe, mp), CalendarMonth(mp), d0 + 1);
            DateOfEpochDay(EpochDay(d)) == d
  {
    var d := LocalDate(CalendarYear(400 * era + yoe, mp), CalendarMonth(mp), d0 + 1);
    EraDayBound(era, yoe, mp, d0);
    var doe := YearOfEraStart(yoe) + MonthStart(mp) + d0;
    EpochDayOfParts(d, era, yoe, mp);
    var z := era * DAYS_PER_ERA + doe - DAYS_0000_03_01_TO_1970;
    assert EpochDay(d) == z;
    DateOfEpochDayOfEraDay(era, doe);
    DateOfEraDayOfDate(era, yoe, mp, d0);
    assert DateOfEpochDay(z) == d;
  }

  /** The epoch day of day `doe` of era `era` is read back in that era. */
  lemma DateOfEpochDayOfEraDay(era: int, doe: int)
    requires 0 <= doe < DAYS_PER_ERA
    ensures DateOfEpochDay(era * DAYS_PER_ERA + doe - DAYS_0000_03_01_TO_1970) == DateOfEraDay(era, doe)
  {
    EraSplit(era, doe);
  }

  /** A day of a month of a year of an era is a day of that era. */
  lemma EraDayBound(era: int, yoe: int, mp: int, d0: int)
    requires 0 <= yoe <= 399 && 0 <= mp <= 11
    requires 0 <= d0 < DaysInMonth(CalendarYear(400 * era + yoe, mp), CalendarMonth(mp))
    ensures 0 <= YearOfEraStart(yoe) + MonthStart(mp) + d0 < DAYS_PER_ERA
  {
    DayOfMarchYearBound(400 * era + yoe, mp, d0);
    LeapYearPeriodic(era, yoe + 1);
    YearOfEraEnd(yoe);
  }

  /** A year of an era ends within the era. */
  lemma YearOfEraEnd(yoe: int)
    requires 0 <= yoe <= 399
    ensures YearOfEraStart(yoe) + MarchYearLength(yoe) <= DAYS_PER_ERA
  {
    if yoe < 399 {
      assert yoe / 4 <= 99;
    }
  }

  /** Day `d0` of month index `mp` of year `yoe` of an era is read back as that date. */
  lemma DateOfEraDayOfDate(era: int, yoe: int, mp: int, d0: int)
    requires 0 <= yoe <= 399 && 0 <= mp <= 11
    requires 0 <= d0 < DaysInMonth(CalendarYear(400 * era + yoe, mp), CalendarMonth(mp))
    ensures DateOfEraDay(era, YearOfEraStart(yoe) + MonthStart(mp) + d0)
         == LocalDate(CalendarYear(400 * era + yoe, mp), CalendarMonth(mp), d0 + 1)
  {
    var yy := 400 * era + yoe;
    var doy := MonthStart(mp) + d0;
    MonthOfDayInverse(yy, mp, d0);
    DayOfMarchYearBound(yy, mp, d0);
    LeapYearPeriodic(era, yoe + 1);
    assert MarchYearLength(yy) == MarchYearLength(yoe);
    YearOfEraInverse(yoe, doy);
  }

  // ---------------------------------------------------------------------
  // Order and month boundaries

  /** The first day of March-based year `400 era + yoe`, counted from 0000-03-01. */
  lemma MarchYearStartSplit(era: int, yoe: int)
    requires 0 <= yoe <= 399
    ensures MarchYearStart(400 * era + yoe) == era * DAYS_PER_ERA + YearOfEraStart(yoe)
  {
    var yy := 400 * era + yoe;
    assert yy / 4 == 100 * era + yoe / 4;
    assert yy / 100 == 4 * era + yoe / 100;
    assert yy / 400 == era;
  }

  /** An epoch day is the start of its March-based year plus the day of that year. */
  lemma EpochDayClosedForm(d: LocalDate)
    requires 1 <= d.month <= 12
    ensures EpochDay(d) + DAYS_0000_03_01_TO_1970
         == MarchYearStart(MarchYear(d.year, d.month)) + MonthStart(MarchMonth(d.month)) + d.day - 1
  {
    var yy := MarchYear(d.year, d.month);
    YearSplit(yy);
    MarchYearStartSplit(yy / 400, yy % 400);
  }

  /** Consecutive March-based years follow each other without gaps. */
  lemma MarchYearStartNext(yy: int)
    ensures MarchYearStart(yy + 1) == MarchYearStart(yy) + MarchYearLength(yy)
  {
    var x := yy + 1;
    assert x / 4 == yy / 4 + (if x % 4 == 0 then 1 else 0);
    assert x / 100 == yy / 100 + (if x % 100 == 0 then 1 else 0);
    assert x / 400 == yy / 400 + (if x % 400 == 0 then 1 else 0);
  }

  /** A later March-based year never starts earlier. */
  lemma {:induction false} MarchYearStartMonotone(a: int, b: int)
    requires a <= b
    ensures MarchYearStart(a) <= MarchYearStart(b)
    decreases b - a
  {
    if a < b {
      MarchYearStartMonotone(a, b - 1);
      MarchYearStartNext(b - 1);
    }
  }

  /** A later month of a March-based year starts after every day of an earlier one. */
  lemma MonthStartMonotone(yy: int, mp1: int, mp2: int)
    requires 0 <= mp1 < mp2 <= 11
    ensures MonthStart(mp1) + DaysInMonth(CalendarYear(yy, mp1), CalendarMonth(mp1)) <= MonthStart(mp2)
  {
  }

  /** The calendar order of dates is the order of their epoch days. */
  lemma {:induction false} EpochDayStrictlyMonotone(a: LocalDate, b: LocalDate)
    requires a.IsCalendarDate() && b.IsCalendarDate()
    requires DateBefore(a, b)
    ensures EpochDay(a) < EpochDay(b)
  {
    var yy1, mp1 := MarchYear(a.year, a.month), MarchMonth(a.month);
    var yy2, mp2 := MarchYear(b.year, b.month), MarchMonth(b.month);
    assert CalendarMonth(mp1) == a.month && CalendarYear(yy1, mp1) == a.year;
    assert CalendarMonth(mp2) == b.month && CalendarYear(yy2, mp2) == b.year;
    assert 12 * yy1 + mp1 == 12 * a.year + a.month - 3;
    assert 12 * yy2 + mp2 == 12 * b.year + b.month - 3;
    DayKeyMonotone(yy1, mp1, a.day - 1, yy2, mp2, b.day - 1);
    EpochDayClosedForm(a);
    EpochDayClosedForm(b);
  }

  /**
   * Days counted from 0000-03-01 grow with the March-based year, then the
   * month index, then the day of the month.
   */
  lemma DayKeyMonotone(yy1: int, mp1: int, d1: int, yy2: int, mp2: int, d2: int)
    requires 0 <= mp1 <= 11 && 0 <= mp2 <= 11
    requires 0 <= d1 < DaysInMonth(CalendarYear(yy1, mp1), CalendarMonth(mp1)) && 0 <= d2
    requires yy1 < yy2 || (yy1 == yy2 && (mp1 < mp2 || (mp1 == mp2 && d1 < d2)))
    ensures MarchYearStart(yy1) + MonthStart(mp1) + d1 < MarchYearStart(yy2) + MonthStart(mp2) + d2
  {
    if yy1 < yy2 {
      DayOfMarchYearBound(yy1, mp1, d1);
      MarchYearStartNext(yy1);
      MarchYearStartMonotone(yy1 + 1, yy2);
    } else if mp1 < mp2 {
      MonthStartMonotone(yy1, mp1, mp2);
    }
  }

  /** Dates compare exactly as their epoch days do. */
  lemma EpochDayOrder(a: LocalDate, b: LocalDate)
    requires a.IsCalendarDate() && b.IsCalendarDate()
    ensures DateBefore(a, b) <==> EpochDay(a) < EpochDay(b)
    ensures a == b <==> EpochDay(a) == EpochDay(b)
  {
    if DateBefore(a, b) {
      EpochDayStrictlyMonotone(a, b);
    } else if DateBefore(b, a) {
      EpochDayStrictlyMonotone(b, a);
    }
  }

  /** `LocalDate.MIN`, -999999999-01-01, is the first day of the `EPOCH_DAY` range. */
  lemma EpochDayOfFirstDate()
    ensures EpochDay(LocalDate(MIN_YEAR, 1, 1)) == MIN_EPOCH_DAY
  {
    var yy := MarchYear(MIN_YEAR, 1);
    assert yy == -1000000000;
    assert yy / 400 == -2500000 && yy % 400 == 0;
    assert MonthStart(MarchMonth(1)) == 306;
    assert YearOfEraStart(0) == 0;
  }

  /** `LocalDate.MAX`, +999999999-12-31, is the last day of the `EPOCH_DAY` range. */
  lemma EpochDayOfLastDate()
    ensures EpochDay(LocalDate(MAX_YEAR, 12, 31)) == MAX_EPOCH_DAY
  {
    var yy := MarchYear(MAX_YEAR, 12);
    assert yy == 999999999;
    assert yy / 400 == 2499999 && yy % 400 == 399;
    assert MonthStart(MarchMonth(12)) == 275;
    assert YearOfEraStart(399) == 145731;
  }

  /** The dates `LocalDate` can hold are exactly those of the `EPOCH_DAY` range. */
  lemma EpochDayRange(d: LocalDate)
    requires d.IsCalendarDate()
    ensures d.Valid() <==> MIN_EPOCH_DAY <= EpochDay(d) <= MAX_EPOCH_DAY
  {
    var first := LocalDate(MIN_YEAR, 1, 1);
    var last := LocalDate(MAX_YEAR, 12, 31);
    EpochDayOfFirstDate();
    EpochDayOfLastDate();
    EpochDayOrder(first, d);
    EpochDayOrder(d, last);
  }

  /** The month after `(year, month)`, as a year and a month. */
  function NextMonth(year: int, month: int): (int, int)
    requires 1 <= month <= 12
  {
    if month == 12 then (year + 1, 1) else (year, month + 1)
  }

  /** The day after the last day of a month is the first day of the next month. */
  lemma {:induction false} LastDayThenFirstDay(year: int, month: int)
    requires 1 <= month <= 12
    ensures EpochDay(LocalDate(year, month, DaysInMonth(year, month))) + 1
         == EpochDay(LocalDate(NextMonth(year, month).0, NextMonth(year, month).1, 1))
  {
    var last := LocalDate(year, month, DaysInMonth(year, month));
    var next := LocalDate(NextMonth(year, month).0, NextMonth(year, month).1, 1);
    EpochDayClosedForm(last);
    EpochDayClosedForm(next);
    var yy, mp := MarchYear(year, month), MarchMonth(month);
    assert CalendarMonth(mp) == month && CalendarYear(yy, mp) == year;
    if month == 2 {
      MarchYearStartNext(yy);
    } else {
      MonthStartNext(yy, mp);
    }
  }
}

=== FILE: iso_format.dfy ===
/**
 * The ISO-8601 text `java.time` produces for a `LocalDateTime` at UTC:
 * `LocalDate.toString()`, `'T'`, `LocalTime.toString()` and the `"Z"`
 * that `ZoneOffset.UTC` prints as, written with the same string
 * operations the JDK uses (`Integer.toString`, `deleteCharAt`,
 * `substring(1)`).
 *
 * A parser for that text is defined beside it, and the format is shown
 * to be invertible on every valid date-time, so that no two date-times
 * share a rendering.
 */
module IsoFormat {
  import opened Wrappers
  import opened IsoCalendar
  import opened JavaTime

  // ---------------------------------------------------------------------
  // Decimal digits

  function Pow10(w: nat): (p: nat)
    ensures p >= 1
  {
    if w == 0 then 1 else 10 * Pow10(w - 1)
  }

  /** The powers of ten the JDK's padding uses. */
  lemma Pow10Values()
    ensures Pow10(2) == 100 && Pow10(3) == 1000 && Pow10(4) == 10000
    ensures Pow10(6) == 1000000 && Pow10(9) == 1000000000
  {
    assert Pow10(1) == 10;
    assert Pow10(2) == 100;
    assert Pow10(3) == 1000;
    assert Pow10(4) == 10000;
    assert Pow10(5) == 100000;
    assert Pow10(6) == 1000000;
    assert Pow10(7) == 10000000;
    assert Pow10(8) == 100000000;
  }

  predicate IsDigit(c: char) {
    '0' <= c <= '9'
  }

  predicate AllDigits(s: string) {
    forall i :: 0 <= i < |s| ==> IsDigit(s[i])
  }

  function DigitChar(d: int): (c: char)
    requires 0 <= d <= 9
    ensures IsDigit(c)
  {
    (48 + d) as char
  }

  function DigitValue(c: char): int
    requires IsDigit(c)
  {
    c as int - 48
  }

  /** `Integer.toString` of a non-negative number: its digits without leading zeros. */
  function NatToString(n: nat): (s: string)
    ensures |s| >= 1
    decreases n
  {
    if n < 10 then [DigitChar(n)] else NatToString(n / 10) + [DigitChar(n % 10)]
  }

  /** `Integer.toString`: a minus sign before the digits of a negative number. */
  function IntToString(n: int): string {
    if n < 0 then "-" + NatToString(-n) else NatToString(n)
  }

  /** The last `w` digits of `n`, zero-padded to exactly `w` characters. */
  function Padded(n: nat, w: nat): string
    decreases w
  {
    if w == 0 then [] else Padded(n / 10, w - 1) + [DigitChar(n % 10)]
  }

  /** The number a string of decimal digits denotes. */
  function ParseDigits(s: string): int
    requires AllDigits(s)
    decreases |s|
  {
    if |s| == 0 then 0 else 10 * ParseDigits(s[..|s| - 1]) + DigitValue(s[|s| - 1])
  }

  /** `StringBuilder.deleteCharAt`. */
  function DeleteCharAt(s: string, i: nat): (r: string)
    requires i < |s|
    ensures |r| == |s| - 1
  {
    s[..i] + s[i + 1..]
  }

  /** Appending a digit shifts the value one place. */
  lemma ParseDigitsAppend(s: string, c: char)
    requires AllDigits(s) && IsDigit(c)
    ensures AllDigits(s + [c])
    ensures ParseDigits(s + [c]) == 10 * ParseDigits(s) + DigitValue(c)
  {
    assert (s + [c])[..|s|] == s;
  }

  /** `Integer.toString` of a natural number is a non-empty digit string denoting it. */
  lemma {:induction false} NatToStringDenotes(n: nat)
    ensures |NatToString(n)| >= 1
    ensures AllDigits(NatToString(n))
    ensures ParseDigits(NatToString(n)) == n
    decreases n
  {
    if n >= 10 {
      NatToStringDenotes(n / 10);
      ParseDigitsAppend(NatToString(n / 10), DigitChar(n % 10));
    }
  }

  /** Zero-padding yields `w` digits denoting `n` whenever `n` has at most `w` digits. */
  lemma {:induction false} PaddedDenotes(n: nat, w: nat)
    requires n < Pow10(w)
    ensures |Padded(n, w)| == w
    ensures AllDigits(Padded(n, w))
    ensures ParseDigits(Padded(n, w)) == n
    decreases w
  {
    if w > 0 {
      PaddedDenotes(n / 10, w - 1);
      ParseDigitsAppend(Padded(n / 10, w - 1), DigitChar(n % 10));
    }
  }

  /**
   * The JDK pads by printing `n + 10^w` and dropping the leading `1`:
   * that leading digit is followed by exactly the zero-padded digits of `n`.
   */
  lemma {:induction false} ShiftedToString(n: nat, w: nat)
    requires n < Pow10(w)
    ensures NatToString(n + Pow10(w)) == "1" + Padded(n, w)
    decreases w
  {
    if w > 0 {
      assert (n + Pow10(w)) / 10 == n / 10 + Pow10(w - 1);
      assert (n + Pow10(w)) % 10 == n % 10;
      ShiftedToString(n / 10, w - 1);
    }
  }

  // ---------------------------------------------------------------------
  // The JDK's rendering

  /** The year of `LocalDate.toString()`: four digits at least, `+` above 9999. */
  function YearToString(year: int): string {
    var absYear := if year < 0 then -year else year;
    if absYear < 1000 then
      if year < 0 then DeleteCharAt(IntToString(year - 10000), 1)
      else DeleteCharAt(IntToString(year + 10000), 0)
    else
      (if year > 9999 then "+" else "") + IntToString(year)
  }

  /** A two-digit field after separator `sep`, with a `0` inserted below ten. */
  function FieldToString(sep: string, n: int): string {
    (if n < 10 then sep + "0" else sep) + IntToString(n)
  }

  /** `LocalDate.toString()`. */
  function LocalDateToString(d: LocalDate): string {
    YearToString(d.year) + FieldToString("-", d.month) + FieldToString("-", d.day)
  }

  /** The fraction of `LocalTime.toString()`: three, six or nine digits after a `.`. */
  function NanoToString(nano: nat): string {
    "." + (if nano % 1000000 == 0 then IntToString(nano / 1000000 + 1000)[1..]
           else if nano % 1000 == 0 then IntToString(nano / 1000 + 1000000)[1..]
           else IntToString(nano + 1000000000)[1..])
  }

  /** `LocalTime.toString()`: the seconds only when they or the nanos are not zero. */
  function LocalTimeToString(hour: int, minute: int, second: int, nano: nat): string {
    FieldToString("", hour) + FieldToString(":", minute)
    + (if second > 0 || nano > 0 then
         FieldToString(":", second) + (if nano > 0 then NanoToString(nano) else "")
       else "")
  }

  /** `LocalDateTime.toString()`. */
  function LocalDateTimeToString(dt: LocalDateTime): string
    requires dt.ValidTime()
  {
    LocalDateToString(dt.Date()) + "T" + LocalTimeToString(dt.hour, dt.minute, dt.second, dt.nano)
  }

  /**
   * `dt.atZone(ZoneOffset.UTC).toString()`: the local text followed by the
   * offset's id `"Z"`; no `[zone]` suffix, since the zone is the offset itself.
   */
  function UtcIsoString(dt: LocalDateTime): string
    requires dt.ValidTime()
  {
    LocalDateTimeToString(dt) + "Z"
  }

  // ---------------------------------------------------------------------
  // The shape of the text

  /** The year as printed: a sign where needed, then at least four digits. */
  function YearText(year: int): string {
    var absYear := if year < 0 then -year else year;
    (if year > 9999 then "+" else if year < 0 then "-" else "")
    + (if absYear < 1000 then Padded(absYear, 4) else NatToString(absYear))
  }

  /** Three, six or nine fraction digits: the shortest of them that is exact. */
  function FractionText(nano: int): string
    requires 0 <= nano < NANOS_PER_SECOND
  {
    if nano == 0 then ""
    else if nano % 1000000 == 0 then "." + Padded(nano / 1000000, 3)
    else if nano % 1000 == 0 then "." + Padded(nano / 1000, 6)
    else "." + Padded(nano, 9)
  }

  /** The seconds and fraction, absent when both are zero. */
  function SecondsText(second: int, nano: int): string
    requires 0 <= second <= 59 && 0 <= nano < NANOS_PER_SECOND
  {
    if second > 0 || nano > 0 then ":" + Padded(second, 2) + FractionText(nano) else ""
  }

  /** `HH:mm`, then `:ss` and the fraction unless seconds and nanos are both zero. */
  function TimeText(hour: int, minute: int, second: int, nano: int): string
    requires 0 <= hour <= 23 && 0 <= minute <= 59 && 0 <= second <= 59 && 0 <= nano < NANOS_PER_SECOND
  {
    Padded(hour, 2) + ":" + Padded(minute, 2) + SecondsText(second, nano)
  }

  /** A two-digit field printed with an optional `0` is its zero-padded form. */
  lemma FieldShape(sep: string, n: int)
    requires 0 <= n <= 99
    ensures FieldToString(sep, n) == sep + Padded(n, 2)
  {
    if n >= 10 {
      assert NatToString(n) == NatToString(n / 10) + [DigitChar(n % 10)];
    } else {
      assert (sep + "0") + IntToString(n) == sep + ("0" + IntToString(n));
    }
  }

  /** A number with exactly `w` digits prints as its zero-padded form. */
  lemma {:induction false} PaddedIsNatToString(n: nat, w: nat)
    requires w >= 1 && Pow10(w - 1) <= n < Pow10(w)
    ensures NatToString(n) == Padded(n, w)
    decreases w
  {
    if w > 1 {
      PaddedIsNatToString(n / 10, w - 1);
    }
  }

  /** Years -999 to -1 lose the `1` of `year - 10000` after the sign. */
  lemma SmallNegativeYearShape(year: int)
    requires -1000 < year < 0
    ensures YearToString(year) == "-" + Padded(-year, 4)
  {
    Pow10Values();
    ShiftedToString(-year, 4);
    var printed := IntToString(year - 10000);
    assert printed == "-" + ("1" + Padded(-year, 4));
    assert printed[..1] == "-";
    assert printed[2..] == Padded(-year, 4);
  }

  /** Years 0 to 999 lose the leading `1` of `year + 10000`. */
  lemma SmallYearShape(year: int)
    requires 0 <= year < 1000
    ensures YearToString(year) == Padded(year, 4)
  {
    Pow10Values();
    ShiftedToString(year, 4);
    var printed := IntToString(year + 10000);
    assert printed == "1" + Padded(year, 4);
    assert printed[1..] == Padded(year, 4);
  }

  /** `LocalDate.toString()` prints the year as `YearText` does. */
  lemma YearShape(year: int)
    ensures YearToString(year) == YearText(year)
  {
    Pow10Values();
    if -1000 < year < 0 {
      SmallNegativeYearShape(year);
    } else if 0 <= year < 1000 {
      SmallYearShape(year);
    } else if -10000 < year <= -1000 {
      PaddedIsNatToString(-year, 4);
    } else if 1000 <= year < 10000 {
      PaddedIsNatToString(year, 4);
    }
  }

  /** `LocalDate.toString()` in terms of fixed-width fields. */
  lemma LocalDateToStringShape(d: LocalDate)
    requires 1 <= d.month <= 12 && 1 <= d.day <= 31
    ensures LocalDateToString(d) == YearText(d.year) + "-" + Padded(d.month, 2) + "-" + Padded(d.day, 2)
  {
    YearShape(d.year);
    FieldShape("-", d.month);
    FieldShape("-", d.day);
  }

  /** The JDK's fraction is the zero-padded group of three, six or nine digits. */
  lemma NanoShape(nano: int)
    requires 0 < nano < NANOS_PER_SECOND
    ensures NanoToString(nano) == FractionText(nano)
  {
    Pow10Values();
    if nano % 1000000 == 0 {
      ShiftedToString(nano / 1000000, 3);
    } else if nano % 1000 == 0 {
      ShiftedToString(nano / 1000, 6);
    } else {
      ShiftedToString(nano, 9);
    }
  }

  /** `LocalTime.toString()` in terms of fixed-width fields. */
  lemma LocalTimeToStringShape(dt: LocalDateTime)
    requires dt.ValidTime()
    ensures LocalTimeToString(dt.hour, dt.minute, dt.second, dt.nano)
         == TimeText(dt.hour, dt.minute, dt.second, dt.nano)
  {
    FieldShape("", dt.hour);
    FieldShape(":", dt.minute);
    FieldShape(":", dt.second);
    if dt.nano > 0 {
      NanoShape(dt.nano);
    }
  }

  // ---------------------------------------------------------------------
  // Reading the text back

  /** Index of the first occurrence of `c` in `s`. */
  function IndexOf(s: string, c: char): (r: Option<nat>)
    ensures r.Some? ==> r.value < |s| && s[r.value] == c
  {
    if |s| == 0 then None
    else if s[0] == c then Some(0)
    else match IndexOf(s[1..], c)
      case None => None
      case Some(i) => Some(i + 1)
  }

  /** The number a non-empty digit string denotes. */
  function ParseNumber(s: string): Option<int> {
    if |s| > 0 && AllDigits(s) then Some(ParseDigits(s)) else None
  }

  /** A year: an optional sign, then digits. */
  function ParseYear(s: string): Option<int> {
    if |s| == 0 then None
    else if s[0] == '+' then ParseNumber(s[1..])
    else if s[0] == '-' then
      match ParseNumber(s[1..])
      case None => None
      case Some(n) => Some(-n)
    else ParseNumber(s)
  }

  /** `year-MM-dd`, the year of any width. */
  function ParseDate(s: string): Option<LocalDate> {
    if |s| < 6 || s[|s| - 6] != '-' || s[|s| - 3] != '-' then None
    else
      var year := ParseYear(s[..|s| - 6]);
      var month := ParseNumber(s[|s| - 5..|s| - 3]);
      var day := ParseNumber(s[|s| - 2..]);
      if year.Some? && month.Some? && day.Some? then Some(LocalDate(year.value, month.value, day.value))
      else None
  }

  /** The nanos of a `.` and three, six or nine digits; nothing at all means zero. */
  function ParseFraction(s: string): Option<int> {
    if |s| == 0 then Some(0)
    else if s[0] != '.' then None
    else
      var v := ParseNumber(s[1..]);
      if v.None? then None
      else if |s| == 4 then Some(v.value * 1000000)
      else if |s| == 7 then Some(v.value * 1000)
      else if |s| == 10 then Some(v.value)
      else None
  }

  /** Seconds and nanos after `HH:mm`: nothing, or `:ss` and a fraction. */
  function ParseSeconds(s: string): Option<(int, int)> {
    if |s| == 0 then Some((0, 0))
    else if |s| < 3 || s[0] != ':' then None
    else
      var second := ParseNumber(s[1..3]);
      var nano := ParseFraction(s[3..]);
      if second.Some? && nano.Some? then Some((second.value, nano.value)) else None
  }

  /** `HH:mm`, `HH:mm:ss`, or `HH:mm:ss` and a fraction: hour, minute, second and nano. */
  function ParseTime(s: string): Option<(int, int, int, int)> {
    if |s| < 5 || s[2] != ':' then None
    else
      var hour := ParseNumber(s[..2]);
      var minute := ParseNumber(s[3..5]);
      var rest := ParseSeconds(s[5..]);
      if hour.Some? && minute.Some? && rest.Some? then
        Some((hour.value, minute.value, rest.value.0, rest.value.1))
      else None
  }

  /** Reads the text `UtcIsoString` prints; anything else, or an invalid date-time, is `None`. */
  function ParseUtcIsoString(s: string): Option<LocalDateTime>
  {
    if |s| == 0 || s[|s| - 1] != 'Z' then None
    else
      var body := s[..|s| - 1];
      var t := IndexOf(body, 'T');
      if t.None? then None
      else
        var date := ParseDate(body[..t.value]);
        var time := ParseTime(body[t.value + 1..]);
        if date.None? || time.None? then None
        else
          var (h, mi, sec, n) := time.value;
          var dt := LocalDateTime(date.value.year, date.value.month, date.value.day, h, mi, sec, n);
          if dt.Valid() then Some(dt) else None
  }

  // ---------------------------------------------------------------------
  // The round trip

  /** A string without `T` followed by `T` puts the first `T` right after it. */
  lemma {:induction false} IndexOfAfter(a: string, b: string)
    requires 'T' !in a
    ensures IndexOf(a + "T" + b, 'T') == Some(|a|)
    decreases |a|
  {
    if |a| > 0 {
      assert (a + "T" + b)[1..] == a[1..] + "T" + b;
      IndexOfAfter(a[1..], b);
    }
  }

  /** Digit strings hold no letter `T`. */
  lemma DigitsHaveNoT(s: string)
    requires AllDigits(s)
    ensures 'T' !in s
  {
    forall i | 0 <= i < |s|
      ensures s[i] != 'T'
    {
      assert IsDigit(s[i]);
    }
  }

  /** Zero-padded numbers read back. */
  lemma ParsePadded(n: nat, w: nat)
    requires w >= 1 && n < Pow10(w)
    ensures ParseNumber(Padded(n, w)) == Some(n)
  {
    PaddedDenotes(n, w);
  }

  /** The year text reads back, and holds no `T`. */
  lemma ParseYearText(year: int)
    ensures ParseYear(YearText(year)) == Some(year)
    ensures 'T' !in YearText(year)
  {
    Pow10Values();
    var absYear := if year < 0 then -year else year;
    var digits := if absYear < 1000 then Padded(absYear, 4) else NatToString(absYear);
    if absYear < 1000 {
      PaddedDenotes(absYear, 4);
    } else {
      NatToStringDenotes(absYear);
    }
    DigitsHaveNoT(digits);
    var sign := if year > 9999 then "+" else if year < 0 then "-" else "";
    assert YearText(year) == sign + digits;
    if sign != "" {
      assert YearText(year)[1..] == digits;
    } else {
      assert YearText(year) == digits;
      assert digits[0] != '+' && digits[0] != '-' by { assert IsDigit(digits[0]); }
      assert ParseNumber(digits) == Some(absYear);
    }
  }

  /** `ParseDate` splits off the last six characters as `-MM-dd`. */
  lemma ParseDateOfParts(y: string, m: string, dd: string)
    requires |m| == 2 && |dd| == 2
    ensures var year, month, day := ParseYear(y), ParseNumber(m), ParseNumber(dd);
            ParseDate(y + "-" + m + "-" + dd)
              == if year.Some? && month.Some? && day.Some? then Some(LocalDate(year.value, month.value, day.value))
                 else None
  {
    var s := y + "-" + m + "-" + dd;
    assert |s| == |y| + 6;
    assert s[..|s| - 6] == y;
    assert s[|s| - 6] == '-' && s[|s| - 3] == '-';
    assert s[|s| - 5..|s| - 3] == m;
    assert s[|s| - 2..] == dd;
  }

  /** The date text reads back, and holds no `T`. */
  lemma ParseDateText(d: LocalDate)
    requires d.IsCalendarDate()
    ensures ParseDate(LocalDateToString(d)) == Some(d)
    ensures 'T' !in LocalDateToString(d)
  {
    Pow10Values();
    LocalDateToStringShape(d);
    ParseYearText(d.year);
    PaddedDenotes(d.month, 2);
    PaddedDenotes(d.day, 2);
    DigitsHaveNoT(Padded(d.month, 2));
    DigitsHaveNoT(Padded(d.day, 2));
    ParsePadded(d.month, 2);
    ParsePadded(d.day, 2);
    ParseDateOfParts(YearText(d.year), Padded(d.month, 2), Padded(d.day, 2));
  }

  /** A fraction of `w` digits after the point reads back, scaled to nanos. */
  lemma ParseFractionOfDigits(v: nat, w: nat)
    requires w == 3 || w == 6 || w == 9
    requires v < Pow10(w)
    ensures ParseFraction("." + Padded(v, w)) == Some(v * Pow10(9 - w))
  {
    Pow10Values();
    PaddedDenotes(v, w);
    ParsePadded(v, w);
    assert ("." + Padded(v, w))[1..] == Padded(v, w);
  }

  /** The fraction text reads back. */
  lemma ParseFractionText(nano: int)
    requires 0 <= nano < NANOS_PER_SECOND
    ensures ParseFraction(FractionText(nano)) == Some(nano)
  {
    Pow10Values();
    if nano > 0 {
      if nano % 1000000 == 0 {
        ParseFractionOfDigits(nano / 1000000, 3);
      } else if nano % 1000 == 0 {
        ParseFractionOfDigits(nano / 1000, 6);
      } else {
        ParseFractionOfDigits(nano, 9);
      }
    }
  }

  /** `ParseSeconds` splits `:ss` from the fraction. */
  lemma ParseSecondsOfParts(ss: string, f: string)
    requires |ss| == 2
    ensures var second, nano := ParseNumber(ss), ParseFraction(f);
            ParseSeconds(":" + ss + f)
              == if second.Some? && nano.Some? then Some((second.value, nano.value)) else None
  {
    var s := ":" + ss + f;
    assert s[0] == ':' && s[1..3] == ss && s[3..] == f;
  }

  /** `ParseTime` splits `HH:mm` from the rest. */
  lemma ParseTimeOfParts(hh: string, mm: string, rest: string)
    requires |hh| == 2 && |mm| == 2
    ensures var hour, minute, more := ParseNumber(hh), ParseNumber(mm), ParseSeconds(rest);
            ParseTime(hh + ":" + mm + rest)
              == if hour.Some? && minute.Some? && more.Some? then
                   Some((hour.value, minute.value, more.value.0, more.value.1))
                 else None
  {
    var s := hh + ":" + mm + rest;
    assert s[..2] == hh && s[2] == ':' && s[3..5] == mm && s[5..] == rest;
  }

  /** The time text reads back. */
  lemma ParseTimeText(dt: LocalDateTime)
    requires dt.ValidTime()
    ensures ParseTime(TimeText(dt.hour, dt.minute, dt.second, dt.nano))
         == Some((dt.hour, dt.minute, dt.second, dt.nano))
  {
    Pow10Values();
    PaddedDenotes(dt.hour, 2);
    PaddedDenotes(dt.minute, 2);
    ParsePadded(dt.hour, 2);
    ParsePadded(dt.minute, 2);
    var rest := SecondsText(dt.second, dt.nano);
    if rest != "" {
      PaddedDenotes(dt.second, 2);
      ParsePadded(dt.second, 2);
      ParseFractionText(dt.nano);
      ParseSecondsOfParts(Padded(dt.second, 2), FractionText(dt.nano));
    }
    ParseTimeOfParts(Padded(dt.hour, 2), Padded(dt.minute, 2), rest);
  }

  /** `ParseUtcIsoString` drops the `Z` and splits at the first `T`. */
  lemma ParseUtcOfParts(date: string, time: string)
    requires 'T' !in date
    ensures var d, t := ParseDate(date), ParseTime(time);
            ParseUtcIsoString(date + "T" + time + "Z")
              == if d.None? || t.None? then None
                 else
                   var dt := LocalDateTime(d.value.year, d.value.month, d.value.day,
                                           t.value.0, t.value.1, t.value.2, t.value.3);
                   if dt.Valid() then Some(dt) else None
  {
    var s := date + "T" + time + "Z";
    var body := s[..|s| - 1];
    assert body == date + "T" + time;
    IndexOfAfter(date, time);
    assert body[..|date|] == date;
    assert body[|date| + 1..] == time;
  }

  /** Every valid date-time is read back from its ISO UTC text. */
  lemma {:induction false} ParseUtcIsoStringInverse(dt: LocalDateTime)
    requires dt.Valid()
    ensures ParseUtcIsoString(UtcIsoString(dt)) == Some(dt)
  {
    ParseDateText(dt.Date());
    LocalTimeToStringShape(dt);
    ParseTimeText(dt);
    ParseUtcOfParts(LocalDateToString(dt.Date()), LocalTimeToString(dt.hour, dt.minute, dt.second, dt.nano));
  }

  /** No two valid date-times share an ISO UTC text. */
  lemma UtcIsoStringInjective(a: LocalDateTime, b: LocalDateTime)
    requires a.Valid() && b.Valid()
    requires UtcIsoString(a) == UtcIsoString(b)
    ensures a == b
  {
    ParseUtcIsoStringInverse(a);
    ParseUtcIsoStringInverse(b);
  }
}

=== FILE: java_time.dfy ===
/**
 * The parts of `java.time` the utilities rest on, written out as values
 * and pure functions: `LocalDateTime` with its order and its sentinels,
 * `ZonedDateTime` over a fixed `ZoneOffset`, `Instant`, the conversions
 * between them through epoch seconds, and the exceptions those
 * conversions can throw.
 *
 * Java's `long` is modelled by `int`; where `java.time` checks a range
 * or uses exact arithmetic (`Math.multiplyExact`, `Math.addExact`) the
 * check is written out and its failure is a `Failure`.
 */
module JavaTime {
  import opened Wrappers
  import opened IsoCalendar

  /** The unchecked exceptions the modelled `java.time` operations throw. */
  datatype Error =
    | DateTimeException    // a value outside the range `java.time` supports
    | ArithmeticException  // a `long` overflow in exact arithmetic

  const MIN_LONG: int := -0x8000_0000_0000_0000
  const MAX_LONG: int := 0x7FFF_FFFF_FFFF_FFFF

  predicate IsLong(x: int) {
    MIN_LONG <= x <= MAX_LONG
  }

  const SECONDS_PER_DAY: int := 86400
  const NANOS_PER_SECOND: int := 1_000_000_000
  const NANOS_PER_MILLI: int := 1_000_000
  const MILLIS_PER_SECOND: int := 1000

  /** `ZoneOffset.MAX_SECONDS`: offsets range over -18:00 to +18:00. */
  const MAX_OFFSET_SECONDS: int := 18 * 3600

  /** `Instant.MIN_SECOND` and `Instant.MAX_SECOND`. */
  const MIN_INSTANT_SECOND: int := -31557014167219200
  const MAX_INSTANT_SECOND: int := 31556889864403199

  // ---------------------------------------------------------------------
  // LocalDateTime

  /** A date and a time of day, without a zone. */
  datatype LocalDateTime = LocalDateTime(
    year: int, month: int, day: int,
    hour: int, minute: int, second: int, nano: int)
  {
    /** `toLocalDate()`. */
    function Date(): LocalDate {
      LocalDate(year, month, day)
    }

    /** The fields of a `LocalTime`: 00:00 to 23:59:59.999999999. */
    predicate ValidTime() {
      0 <= hour <= 23 && 0 <= minute <= 59 && 0 <= second <= 59 && 0 <= nano < NANOS_PER_SECOND
    }

    /** A value `LocalDateTime` can hold. */
    predicate Valid() {
      Date().Valid() && ValidTime()
    }

    /** `LocalTime.toSecondOfDay()`. */
    function SecondOfDay(): int {
      hour * 3600 + minute * 60 + second
    }
  }

  /** `LocalDateTime.MIN`: -999999999-01-01T00:00. */
  const MIN: LocalDateTime := LocalDateTime(MIN_YEAR, 1, 1, 0, 0, 0, 0)

  /** `LocalDateTime.MAX`: +999999999-12-31T23:59:59.999999999. */
  const MAX: LocalDateTime := LocalDateTime(MAX_YEAR, 12, 31, 23, 59, 59, NANOS_PER_SECOND - 1)

  /** `Integer.compare`. */
  function IntegerCompare(x: int, y: int): int {
    if x < y then -1 else if x == y then 0 else 1
  }

  /**
   * `LocalDateTime.compareTo`: the date fields compared by difference,
   * then the time fields by `Integer.compare`. Only the sign is meaningful.
   */
  function CompareTo(a: LocalDateTime, b: LocalDateTime): int {
    if a.year != b.year then a.year - b.year
    else if a.month != b.month then a.month - b.month
    else if a.day != b.day then a.day - b.day
    else if a.hour != b.hour then IntegerCompare(a.hour, b.hour)
    else if a.minute != b.minute then IntegerCompare(a.minute, b.minute)
    else if a.second != b.second then IntegerCompare(a.second, b.second)
    else IntegerCompare(a.nano, b.nano)
  }

  /** `isBefore`, `isAfter` and `isEqual` of two `LocalDateTime`s. */
  predicate IsBefore(a: LocalDateTime, b: LocalDateTime) { CompareTo(a, b) < 0 }
  predicate IsAfter(a: LocalDateTime, b: LocalDateTime) { CompareTo(a, b) > 0 }
  predicate IsEqual(a: LocalDateTime, b: LocalDateTime) { CompareTo(a, b) == 0 }

  /** `a` is not after `b`. */
  predicate NotAfter(a: LocalDateTime, b: LocalDateTime) { CompareTo(a, b) <= 0 }

  /**
   * The nanoseconds from 1970-01-01T00:00 to `dt` on a clock that counts
   * every day as 86400 seconds: the timeline the calendar order must agree with.
   */
  function EpochNano(dt: LocalDateTime): int
    requires 1 <= dt.month <= 12
  {
    (EpochDay(dt.Date()) * SECONDS_PER_DAY + dt.SecondOfDay()) * NANOS_PER_SECOND + dt.nano
  }

  /** `compareTo` is zero exactly on equal values. */
  lemma CompareToZero(a: LocalDateTime, b: LocalDateTime)
    ensures CompareTo(a, b) == 0 <==> a == b
  {
  }

  /** Swapping the arguments of `compareTo` flips its sign. */
  lemma CompareToAntisymmetric(a: LocalDateTime, b: LocalDateTime)
    ensures CompareTo(a, b) < 0 <==> CompareTo(b, a) > 0
  {
  }

  /** "Not after" is transitive. */
  lemma NotAfterTransitive(a: LocalDateTime, b: LocalDateTime, c: LocalDateTime)
    requires NotAfter(a, b) && NotAfter(b, c)
    ensures NotAfter(a, c)
  {
  }

  /** Any two values are ordered one way or the other. */
  lemma NotAfterTotal(a: LocalDateTime, b: LocalDateTime)
    ensures NotAfter(a, b) || NotAfter(b, a)
  {
  }

  /** A time of day lies within its day, and the time fields order seconds of the day. */
  lemma SecondOfDayBounds(dt: LocalDateTime)
    requires dt.ValidTime()
    ensures 0 <= dt.SecondOfDay() < SECONDS_PER_DAY
  {
  }

  /** `compareTo` orders valid values exactly as the timeline does. */
  lemma {:induction false} CompareToFollowsTimeline(a: LocalDateTime, b: LocalDateTime)
    requires a.Valid() && b.Valid()
    ensures CompareTo(a, b) < 0 <==> EpochNano(a) < EpochNano(b)
    ensures CompareTo(a, b) == 0 <==> EpochNano(a) == EpochNano(b)
  {
    EpochDayOrder(a.Date(), b.Date());
    SecondOfDayBounds(a);
    SecondOfDayBounds(b);
    var da, db := EpochDay(a.Date()), EpochDay(b.Date());
    if da < db {
      assert EpochNano(a) < (da + 1) * SECONDS_PER_DAY * NANOS_PER_SECOND <= EpochNano(b);
    } else if db < da {
      assert EpochNano(b) < (db + 1) * SECONDS_PER_DAY * NANOS_PER_SECOND <= EpochNano(a);
    }
  }

  /** Every valid value lies between the sentinels `MIN` and `MAX`. */
  lemma BetweenSentinels(dt: LocalDateTime)
    requires dt.Valid()
    ensures NotAfter(MIN, dt) && NotAfter(dt, MAX)
  {
  }

  // ---------------------------------------------------------------------
  // Epoch seconds

  /** `toEpochSecond(offset)`: seconds from 1970-01-01T00:00Z to `dt` seen at `offset`. */
  function EpochSecond(dt: LocalDateTime, offset: int): int
    requires 1 <= dt.month <= 12
  {
    EpochDay(dt.Date()) * SECONDS_PER_DAY + dt.SecondOfDay() - offset
  }

  /**
   * `LocalDateTime.ofEpochSecond(epochSecond, nano, offset)`: the local
   * date-time at `offset` of an instant. `LocalDate.ofEpochDay` throws
   * when the day leaves the `EPOCH_DAY` range.
   */
  function OfEpochSecond(epochSecond: int, nano: int, offset: int): Result<LocalDateTime, Error>
    requires 0 <= nano < NANOS_PER_SECOND
  {
    var localSecond := epochSecond + offset;
    var epochDay := localSecond / SECONDS_PER_DAY;
    var secsOfDay := localSecond % SECONDS_PER_DAY;
    if epochDay < MIN_EPOCH_DAY || MAX_EPOCH_DAY < epochDay then
      Failure(DateTimeException)
    else
      var date := DateOfEpochDay(epochDay);
      var (hour, minute, second) := TimeOfSecondOfDay(secsOfDay);
      Success(LocalDateTime(date.year, date.month, date.day, hour, minute, second, nano))
  }

  /** The hour, minute and second `ofEpochSecond` reads off a second of the day. */
  function TimeOfSecondOfDay(s: int): (int, int, int)
  {
    (s / 3600, s / 60 % 60, s % 60)
  }

  /** Reading the time fields off a second of the day and summing them back agree. */
  lemma TimeOfSecondOfDayInverse(s: int)
    requires 0 <= s < SECONDS_PER_DAY
    ensures var (h, m, sec) := TimeOfSecondOfDay(s);
            0 <= h <= 23 && 0 <= m <= 59 && 0 <= sec <= 59 && h * 3600 + m * 60 + sec == s
  {
    var h, m := s / 3600, s / 60 % 60;
    assert s / 60 == 60 * h + m;
  }

  /** The time fields are read back from their second of the day. */
  lemma SecondOfDayInverse(dt: LocalDateTime)
    requires dt.ValidTime()
    ensures TimeOfSecondOfDay(dt.SecondOfDay()) == (dt.hour, dt.minute, dt.second)
  {
    var s := dt.SecondOfDay();
    assert s / 60 == 60 * dt.hour + dt.minute;
    assert s / 3600 == dt.hour;
  }

  /** Splitting a count of seconds into whole days and a second of the day. */
  lemma DaySplit(day: int, s: int)
    requires 0 <= s < SECONDS_PER_DAY
    ensures (day * SECONDS_PER_DAY + s) / SECONDS_PER_DAY == day
    ensures (day * SECONDS_PER_DAY + s) % SECONDS_PER_DAY == s
  {
  }

  /**
   * `ofEpochSecond` fails exactly outside the supported range, and
   * otherwise yields a valid value that `toEpochSecond` maps back.
   */
  lemma {:induction false} OfEpochSecondInverse(epochSecond: int, nano: int, offset: int)
    requires 0 <= nano < NANOS_PER_SECOND
    ensures (OfEpochSecond(epochSecond, nano, offset).Success?
             <==> MIN_EPOCH_DAY * SECONDS_PER_DAY <= epochSecond + offset < (MAX_EPOCH_DAY + 1) * SECONDS_PER_DAY)
    ensures OfEpochSecond(epochSecond, nano, offset).Success? ==>
              var dt := OfEpochSecond(epochSecond, nano, offset).value;
              dt.Valid() && EpochSecond(dt, offset) == epochSecond && dt.nano == nano
  {
    var localSecond := epochSecond + offset;
    var epochDay := localSecond / SECONDS_PER_DAY;
    var secsOfDay := localSecond % SECONDS_PER_DAY;
    assert localSecond == epochDay * SECONDS_PER_DAY + secsOfDay;
    if MIN_EPOCH_DAY <= epochDay <= MAX_EPOCH_DAY {
      EpochDayOfDateOfEpochDay(epochDay);
      var date := DateOfEpochDay(epochDay);
      EpochDayRange(date);
      TimeOfSecondOfDayInverse(secsOfDay);
      var dt := OfEpochSecond(epochSecond, nano, offset).value;
      assert dt.Date() == date;
      assert dt.SecondOfDay() == secsOfDay;
    }
  }

  /** A valid value is recovered from its epoch second at any offset. */
  lemma {:induction false} OfEpochSecondOfEpochSecond(dt: LocalDateTime, offset: int)
    requires dt.Valid()
    ensures OfEpochSecond(EpochSecond(dt, offset), dt.nano, offset) == Success(dt)
  {
    var localSecond := EpochSecond(dt, offset) + offset;
    SecondOfDayBounds(dt);
    var z := EpochDay(dt.Date());
    assert localSecond == z * SECONDS_PER_DAY + dt.SecondOfDay();
    DaySplit(z, dt.SecondOfDay());
    EpochDayRange(dt.Date());
    DateOfEpochDayOfEpochDay(dt.Date());
    SecondOfDayInverse(dt);
  }

  // ---------------------------------------------------------------------
  // Instant

  /** An instant: seconds and nanoseconds from 1970-01-01T00:00Z. */
  datatype Instant = Instant(seconds: int, nanos: int) {
    predicate Valid() {
      MIN_INSTANT_SECOND <= seconds <= MAX_INSTANT_SECOND && 0 <= nanos < NANOS_PER_SECOND
    }
  }

  /** `Instant.ofEpochMilli`: floor division and floor modulus by 1000. */
  function InstantOfEpochMilli(millis: int): (i: Instant)
    requires IsLong(millis)
    ensures i.Valid()
    ensures i.seconds * MILLIS_PER_SECOND + i.nanos / NANOS_PER_MILLI == millis
    ensures i.nanos % NANOS_PER_MILLI == 0
  {
    Instant(millis / MILLIS_PER_SECOND, millis % MILLIS_PER_SECOND * NANOS_PER_MILLI)
  }

  /** `Instant.ofEpochSecond(seconds, nanos)` for nanos already in range. */
  function InstantOfEpochSecond(seconds: int, nanos: int): Result<Instant, Error>
    requires 0 <= nanos < NANOS_PER_SECOND
  {
    if seconds < MIN_INSTANT_SECOND || MAX_INSTANT_SECOND < seconds then Failure(DateTimeException)
    else Success(Instant(seconds, nanos))
  }

  /** `Math.multiplyExact` on `long`s. */
  function MultiplyExact(x: int, y: int): Result<int, Error>
  {
    if IsLong(x * y) then Success(x * y) else Failure(ArithmeticException)
  }

  /** `Math.addExact` on `long`s. */
  function AddExact(x: int, y: int): Result<int, Error>
  {
    if IsLong(x + y) then Success(x + y) else Failure(ArithmeticException)
  }

  /**
   * `Instant.toEpochMilli`, including its separate path for negative
   * seconds with a non-zero fraction, which keeps the intermediate
   * product in range.
   */
  function ToEpochMilli(i: Instant): Result<int, Error>
    requires i.Valid()
  {
    if i.seconds < 0 && i.nanos > 0 then
      match MultiplyExact(i.seconds + 1, MILLIS_PER_SECOND)
      case Failure(e) => Failure(e)
      case Success(millis) => AddExact(millis, i.nanos / NANOS_PER_MILLI - MILLIS_PER_SECOND)
    else
      match MultiplyExact(i.seconds, MILLIS_PER_SECOND)
      case Failure(e) => Failure(e)
      case Success(millis) => AddExact(millis, i.nanos / NANOS_PER_MILLI)
  }

  /**
   * Both paths of `toEpochMilli` compute the instant's milliseconds,
   * truncating the fraction toward the past, and throw exactly when
   * that count leaves the `long` range.
   */
  lemma ToEpochMilliExact(i: Instant)
    requires i.Valid()
    ensures var millis := i.seconds * MILLIS_PER_SECOND + i.nanos / NANOS_PER_MILLI;
            ToEpochMilli(i) == if IsLong(millis) then Success(millis) else Failure(ArithmeticException)
  {
  }

  /** Milliseconds survive `Instant.ofEpochMilli` followed by `toEpochMilli`. */
  lemma EpochMilliRoundTrip(millis: int)
    requires IsLong(millis)
    ensures ToEpochMilli(InstantOfEpochMilli(millis)) == Success(millis)
  {
    ToEpochMilliExact(InstantOfEpochMilli(millis));
  }

  // ---------------------------------------------------------------------
  // ZonedDateTime at a fixed offset

  /** A `ZonedDateTime` whose zone is the `ZoneOffset` of `offset` seconds. */
  datatype ZonedDateTime = ZonedDateTime(dateTime: LocalDateTime, offset: int) {
    predicate Valid() {
      dateTime.Valid() && -MAX_OFFSET_SECONDS <= offset <= MAX_OFFSET_SECONDS
    }
  }

  /** `localDateTime.atZone(ZoneOffset.UTC)`. */
  function AtUtc(dt: LocalDateTime): ZonedDateTime {
    ZonedDateTime(dt, 0)
  }

  /**
   * `withZoneSameInstant(ZoneOffset.UTC)`: the same instant seen in UTC.
   * A zone equal to UTC returns the value unchanged; otherwise the local
   * date-time is rebuilt, which throws when it leaves the supported range.
   */
  function WithZoneSameInstantUtc(z: ZonedDateTime): Result<ZonedDateTime, Error>
    requires z.Valid()
  {
    if z.offset == 0 then Success(z)
    else
      match OfEpochSecond(EpochSecond(z.dateTime, z.offset), z.dateTime.nano, 0)
      case Failure(e) => Failure(e)
      case Success(dt) => Success(AtUtc(dt))
  }

  /** `toInstant()`. */
  function ToInstant(z: ZonedDateTime): Result<Instant, Error>
    requires z.Valid()
  {
    InstantOfEpochSecond(EpochSecond(z.dateTime, z.offset), z.dateTime.nano)
  }

  /** The instant of every valid zoned date-time lies in `Instant`'s range. */
  lemma ToInstantSucceeds(z: ZonedDateTime)
    requires z.Valid()
    ensures ToInstant(z) == Success(Instant(EpochSecond(z.dateTime, z.offset), z.dateTime.nano))
  {
    EpochDayRange(z.dateTime.Date());
    SecondOfDayBounds(z.dateTime);
  }

  /**
   * Re-anchoring to UTC keeps the instant, and throws exactly when the
   * UTC date-time leaves the supported range.
   */
  lemma WithZoneSameInstantUtcKeepsInstant(z: ZonedDateTime)
    requires z.Valid()
    ensures var s := EpochSecond(z.dateTime, z.offset);
            (WithZoneSameInstantUtc(z).Success?
             <==> MIN_EPOCH_DAY * SECONDS_PER_DAY <= s < (MAX_EPOCH_DAY + 1) * SECONDS_PER_DAY)
    ensures WithZoneSameInstantUtc(z).Success? ==>
              var u := WithZoneSameInstantUtc(z).value;
              u.Valid() && u.offset == 0
              && EpochSecond(u.dateTime, 0) == EpochSecond(z.dateTime, z.offset)
              && u.dateTime.nano == z.dateTime.nano
  {
    OfEpochSecondInverse(EpochSecond(z.dateTime, z.offset), z.dateTime.nano, 0);
    if z.offset == 0 {
      EpochDayRange(z.dateTime.Date());
      SecondOfDayBounds(z.dateTime);
    }
  }
}

=== FILE: wrappers.dfy ===
/**
 * Absence and failure as values.
 *
 * `Option` stands for a Java reference that may be `null`; `Result` stands
 * for a computation that may end in one of the exceptions `java.time`
 * throws (modelled by `JavaTime.Error`).
 */
module Wrappers {

  datatype Option<+T> = None | Some(value: T) {

    /** The wrapped value, or `default` when absent (Java's `orElse`). */
    function GetOr(default: T): T {
      match this
      case Some(v) => v
      case None => default
    }
  }

  datatype Result<+T, +E> = Success(value: T) | Failure(error: E)
}
